=== FILE: README.md ===
# Parameter-server shard kernels of tfops, in Dafny

This project models the parameter-server core of tfops. A *shard* is a hash
table from scalar keys to scalar values. It lives in the TensorFlow resource
manager under a (container, name) identity. Kernels reach it through a handle.
The model covers:

- **The shard** (`shard_data.dfy`, module `ShardData`). This is the table as
  a `map`, its shape and dtype checks, and the operations on it:
  - `Find`, with the per-key or shared default;
  - `Insert` and `ImportValues`, both built on the upsert loop `DoInsert`;
  - the stub `Remove`;
  - `ExportValues`, which walks the table in an unspecified order.
- **The resource manager** (`registry.dfy`, module `ResourceRegistry`). It
  offers lookup, lookup-or-create and delete on a value-level
  `map<(container, name), Shard>`.
- **Handle resolution** (`handles.dfy`, module `Handles`). It parses the
  two-string reference handle and resolves both the reference and the
  resource path. It also holds `CheckShardDataTypes`.
- **`GetPSHandleOp`** (`handle_op.dfy`, module `HandleOp`). This is a state
  machine over:
  - the cached handle payload;
  - the "handle is set" flag;
  - the container info.

  Its `Compute` initialises the container info, creates the shard or reuses
  it, checks its dtypes and writes the handle once. Its destructor deletes a
  private shard. The seven registered (key, value) dtype pairs are here too.
- **The operation kernels** (`kernels.dfy`, module `Kernels`). They are
  PSAddMeta, PSPull, PSPush, PSLoad and PSSave. Each resolves the handle,
  validates (or does not, as in the code), and reads or rewrites the table.
  For the kernels with the full signatures (see Findings), the module also
  proves the Save-then-Load round trip and that a Pull after a Push reads the
  pushed values back.
- **Shape inference** (`shape_inference.dfy`, module `ShapeInference`). It
  holds `ValidateResourceHandle` over partly known shapes, `TwoElementOutput`,
  and the shape functions of the GetPSHandle and PSPull ops.
- **`GraphReorder`** (`graph_reorder.dfy`, module `GraphReorder`). It
  renumbers the node ids of N lists into one first-appearance-ordered
  unique list plus per-list positions.

Shared vocabulary lives in `outcome.dfy` (`Result`, `Status`, `Option` and
the error codes), `tensors.dfy` (dtypes, shapes, flat tensors and the
signature check) and `sequences.dfy` (module `Sequences`: the element set of
a sequence and distinctness).

Key and value element types are generic (`K`, `V`). A `DataType` tag rides
along on shards and tensors. Reading a tensor with the wrong `flat<T>()`
type makes the host abort; the model represents that abort as the error code
`Fatal`. Where the C++ code has undefined behaviour, the model states the
caller obligation as a `requires`. There are two such places: PSPull reading
`default_flat(0)` of an empty default tensor, and PSPush reading past the end
of a short values tensor.

The host facilities the core calls but that are not in this repository get
their TensorFlow behaviour written out:

- `LookupInterface::CheckKeyAndValueTypes`, `CheckKeyShape` and
  `CheckFindArguments`;
- `OpKernelContext::MatchSignature`, which requires equal list lengths and
  compatible types;
- `ResourceMgr`.

Facilities that depend on the environment become parameters:

- the outcome of `ContainerInfo::Init`;
- the context status after the shard constructor runs;
- the `track_allocations` flag;
- the shard's memory estimate (`memoryUsed`);
- the handle's allocated byte count.

PSLoad validates the key and value tensors (`src/main/kernels/ps_kernels.cpp:147`)
before `ImportValues` clears the table (line 154), so a rejected load leaves
the shard untouched.

## Model

| member | source | states |
|---|---|---|
| Tensors.Flat | src/main/kernels/ps_shard_data.h:95-97 | reading a tensor as element type T succeeds iff its tag is T and then yields its elements; otherwise the process aborts (Fatal) |
| Tensors.MatchSignature | src/main/kernels/ps_kernels.cpp:142-143 | the signature check passes iff both type lists have the expected length and every actual type is the declared one or a reference to it; failure is InvalidArgument |
| ShardData.ValueShapeFor | src/main/kernels/ps_shard_data.h:62-66 | for a scalar-key, scalar-value shard the expected value shape is exactly the keys' shape |
| ShardData.CheckKeyAndValueTensors | src/main/kernels/ps_shard_data.h:57-73 | insert/import validation accepts iff key dtype, value dtype match the shard and the values have the keys' shape; every rejection is InvalidArgument |
| ShardData.CheckKeyTensorForRemove | src/main/kernels/ps_shard_data.h:47-53 | remove validation accepts iff the key dtype matches (a scalar key shape admits any keys shape) |
| ShardData.CheckFindArguments | src/main/kernels/ps_kernels.cpp:53-55 | lookup validation accepts iff dtypes match and the default is a scalar or has the keys' shape; an accepted well-formed default then has one element or one per key |
| ShardData.Find | src/main/kernels/ps_shard_data.h:93-126 | one output per key: the stored value for a present key; for an absent key default i when defaults and outputs have the same size, else default 0 |
| ShardData.Upsert | src/main/kernels/ps_shard_data.h:136-141 | the resulting key set is the old keys plus the batch keys; untouched keys keep their values; each batch key holds the value at its last occurrence |
| ShardData.DoInsert | src/main/kernels/ps_shard_data.h:128-143 | the dtypes are kept; with `clear` the old entries are gone, otherwise kept unless overwritten; the last occurrence of a key wins |
| ShardData.Insert | src/main/kernels/ps_shard_data.h:145-148 | insert keeps every key outside the batch and makes each batch key map to its last value |
| ShardData.ImportValues | src/main/kernels/ps_shard_data.h:154-157 | import leaves exactly the batch keys in the table, each with its last value |
| ShardData.Remove | src/main/kernels/ps_shard_data.h:150-152 | remove reports success and changes nothing |
| ShardData.Size | src/main/kernels/ps_shard_data.h:88-91 | the number of keys in the shard's table; it is used through SizeAfterImport |
| ShardData.SizeAfterImport | src/main/kernels/ps_shard_data.h:88-91 | after an import the size is at most the batch length, and equal to it for a duplicate-free batch |
| ShardData.ExportValues | src/main/kernels/ps_shard_data.h:159-178 | export lists every table entry exactly once, key with its value, in some order, with both lists of the table's size |
| ShardData.ExportDeterminesTable | src/main/kernels/ps_shard_data.h:154-178 | a table holding exactly the exported keys, each with the value at its last position, equals the exported table |
| ShardData.ImportOfExport | src/main/kernels/ps_shard_data.h:154-178 | importing an export of a shard gives back that shard |
| ShardData.SingleDefault | src/main/kernels/ps_shard_data.h:101-113 | with a single default every absent key reads that default |
| ShardData.LastWriteWins | src/main/kernels/ps_shard_data.h:136-138 | inserting the same key twice in one batch keeps the second value |
| ShardData.FindAfterInsert | src/main/kernels/ps_shard_data.h:93-148 | a lookup right after an insert of the same keys returns the inserted values, whatever the defaults |
| ResourceRegistry.Lookup | src/main/kernels/ps_shard_data.cpp:40 | lookup succeeds iff the identity is registered and returns that shard; otherwise NotFound |
| ResourceRegistry.LookupOrCreate | src/main/kernels/ps_kernels.h:68-70 | an existing shard is returned and the registry left alone; otherwise the creator's shard is registered, or its error returned with nothing registered; other identities are untouched |
| ResourceRegistry.Delete | src/main/kernels/ps_kernels.h:100-102 | delete removes exactly that identity and reports NotFound when it was absent |
| ResourceRegistry.LookupOrCreateIdempotent | src/main/kernels/ps_kernels.h:68-70 | a second lookup-or-create of the same identity returns the first result and changes nothing, whatever its creator would do |
| ResourceRegistry.LookupAfterCreate | src/main/kernels/ps_kernels.h:68-70 | a later lookup finds what lookup-or-create returned |
| Handles.EncodeHandle | src/main/kernels/ps_kernels.h:86-90 | the string handle has two elements: container, then name |
| Handles.GetPSShardHandle | src/main/kernels/ps_shard_data.cpp:6-24 | parsing succeeds iff the handle has exactly two elements, and then re-encoding gives the handle back; otherwise InvalidArgument |
| Handles.HandleRoundTrip | src/main/kernels/ps_shard_data.cpp:14-21 | parsing an encoded handle gives back its (container, name) |
| Handles.GetReferencePSShard | src/main/kernels/ps_shard_data.cpp:34-41 | a malformed handle is InvalidArgument without a lookup; otherwise exactly the parsed identity is looked up (NotFound when absent) |
| Handles.GetResourcePSShard | src/main/kernels/ps_shard_data.cpp:26-32 | a resource handle resolves to the shard under the identity it carries, or NotFound |
| Handles.GetPSShard | src/main/kernels/ps_shard_data.cpp:43-52 | resolution succeeds iff the handle names a registered identity and returns that identity's shard; malformed is InvalidArgument, absent is NotFound |
| Handles.CheckShardDataTypes | src/main/kernels/ps_shard_data.cpp:54-64 | the check passes iff both the key and value dtypes are the expected ones; otherwise InvalidArgument |
| HandleOp.SevenSupportedPairs | src/main/kernels/ps_kernels.cpp:193-199 | exactly seven (key, value) dtype pairs have a handle kernel |
| HandleOp.Construct | src/main/kernels/ps_kernels.h:27-41 | construction succeeds iff the pair is registered and the attribute read succeeds; the flag starts unset and the handle is a resource scalar or a two-string vector as the output type says |
| HandleOp.Compute | src/main/kernels/ps_kernels.h:44-95 | container info is initialised only while unset; an existing shard is reused, a new empty one installed only if construction succeeded; a dtype clash is InvalidArgument; on success the output is the payload written on the first call and cached after; memory is recorded only on a tracked creation |
| HandleOp.Destroy | src/main/kernels/ps_kernels.h:97-108 | teardown deletes the shard only if the handle was set and the shard is private to the kernel, and touches nothing else |
| HandleOp.ConstructValid | src/main/kernels/ps_kernels.h:27-41 | a newly built kernel satisfies the state invariant `HandleOp.Valid`: the handle tensor has the declared output type, a string handle has two elements, and a set handle names the cached container info |
| HandleOp.ComputeValid | src/main/kernels/ps_kernels.h:44-95 | every call, successful or not, preserves `HandleOp.Valid` |
| HandleOp.ComputeThenResolve | src/main/kernels/ps_kernels.h:86-91 | from any state satisfying `HandleOp.Valid` with a string output, the string handle a successful call outputs resolves to the shard it created or found |
| HandleOp.SecondComputeReuses | src/main/kernels/ps_kernels.h:47-50 | a second call after a success ignores the host's init and construction outcomes, changes nothing, outputs the same handle and records no memory |
| HandleOp.DestroyAfterCompute | src/main/kernels/ps_kernels.h:97-105 | after a successful call, teardown makes a private shard unfindable and keeps a shared one |
| Kernels.FindInto | src/main/kernels/ps_kernels.cpp:57-63 | the lookup output has the keys' shape and the shard's value dtype and holds `Find` of the keys; a dtype clash aborts |
| Kernels.AddMeta | src/main/kernels/ps_kernels.cpp:45-64 | with the full signature: resolution errors pass through; the call succeeds iff the dtypes match and the default is scalar or keys-shaped, and then returns the lookup; every other failure is InvalidArgument, except a string-reference output declared for string values, which aborts |
| Kernels.AddMetaAbortsOnlyOnStringRef | src/main/kernels/ps_kernels.cpp:50-63 | with the full signature, the only failure that is not InvalidArgument is the abort when a string-reference output is declared for string values |
| Kernels.AddMetaAsWritten | src/main/kernels/ps_kernels.cpp:45-64 | as written, PSAddMeta passes resolution errors through and fails with InvalidArgument on every call whose handle resolves |
| Kernels.Pull | src/main/kernels/ps_kernels.cpp:73-94 | PSPull never fails with a status after resolution: matching dtypes give the lookup, anything else aborts |
| Kernels.Push | src/main/kernels/ps_kernels.cpp:103-128 | PSPush inserts the batch into the resolved shard only, keeps the registry's identities, reports the memory delta when tracking, and aborts on a dtype clash |
| Kernels.PullAfterPush | src/main/kernels/ps_kernels.cpp:73-128 | a Push of tensors of the shard's types with a value per key succeeds, and a Pull through the same handle right after it returns, for each key, the value at its last occurrence in the pushed batch |
| Kernels.Load | src/main/kernels/ps_kernels.cpp:137-159 | with the full signature: PSLoad succeeds iff the dtypes match and values have the keys' shape, and then the shard holds exactly the batch (last value wins) with nothing else changed; failures are InvalidArgument |
| Kernels.LoadAsWritten | src/main/kernels/ps_kernels.cpp:137-159 | as written, PSLoad passes resolution errors through and fails with InvalidArgument on every call whose handle resolves, so no snapshot can be loaded |
| Kernels.Save | src/main/kernels/ps_kernels.cpp:168-177 | with the full signature: PSSave succeeds iff the declared output types are the shard's, and then outputs every entry exactly once; a signature mismatch is InvalidArgument, and the only other failure is the abort on a string-reference output declared for a string part |
| Kernels.SaveAbortsOnlyOnStringRef | src/main/kernels/ps_kernels.cpp:168-177 | output types that pass the full PSSave signature but differ from the shard's can only be string references declared for a string key or value part |
| Kernels.SaveAsWritten | src/main/kernels/ps_kernels.cpp:173-174 | as written, PSSave fails with InvalidArgument on every call whose handle resolves |
| Kernels.SaveOutputLoads | src/main/kernels/ps_kernels.cpp:137-177 | for the kernels with the full signatures (see Findings): what a save of a shard outputs loads into any shard of the same dtypes and leaves it equal to the saved shard |
| Kernels.LoadOfSaveRestores | src/main/kernels/ps_kernels.cpp:137-177 | for the kernels with the full signatures (see Findings): loading a shard's own save output through the same handle leaves the registry unchanged |
| ShapeInference.ValidateResourceHandle | src/main/ops/ps_ops.h:16-79 | no usable handle data gives an unknown shape of invalid type; attribute-read errors and dtype clashes are reported key first; a lookup drops the key suffix and appends the value shape, and fails iff the keys rank is below the suffix rank; otherwise the value shape is appended to the keys |
| ShapeInference.LookupInferenceMatchesKernel | src/main/ops/ps_ops.h:45-69 | if handle data for a scalar shard were published (no op publishes it), a lookup with fully known keys would be inferred to have the shape the lookup kernels allocate |
| ShapeInference.TwoElementOutput | src/main/ops/ps_ops.h:81-84 | the handle output is a vector of two elements |
| ShapeInference.TwoElementOutputFitsHandle | src/main/ops/ps_ops.h:81-84 | that declared shape holds exactly the two strings the handle kernel writes |
| ShapeInference.WithRank | src/main/ops/ps_crud_ops.cpp:23-24 | the rank check on the handle input: an unknown shape gets the rank, a known shape must already have it, otherwise InvalidArgument |
| ShapeInference.GetPSHandleShapeFn | src/main/ops/ps_crud_ops.cpp:5-13 | the GetPSHandle op declares a two-element handle shape and publishes no handle data; this constant matters through `ShapeInference.PullShapeUnknownAsRegistered` |
| ShapeInference.PullShapeFn | src/main/ops/ps_crud_ops.cpp:15-35 | PSPull's shape function rejects a handle of known rank other than 1; without handle data the output shape is unknown and the attributes are not read; with handle data, success needs both attributes read and both dtypes to agree, and the output shape is the keys without their key suffix followed by the value shape (unknown when either shape is unknown) |
| ShapeInference.PullShapeUnknownAsRegistered | src/main/ops/ps_crud_ops.cpp:15-35 | as registered, PSPull's inferred output shape is always unknown, since its handle carries no handle data |
| ShapeInference.PullShapeNeedsVectorHandle | src/main/ops/ps_crud_ops.cpp:23-24 | a handle of known rank other than 1 makes PSPull's shape function fail with InvalidArgument |
| GraphReorder.Visit | src/main/kernels/graph_reorder_kernel.cpp:31-43 | a node already seen keeps its number; a new node is appended and numbered with the current count; either way the number points at the node |
| GraphReorder.RenumberPart | src/main/kernels/graph_reorder_kernel.cpp:30-44 | one list is renumbered position by position, the unique list only grows at its end, and every index points at its node |
| GraphReorder.Reorder | src/main/kernels/graph_reorder_kernel.cpp:16-73 | the unique list is the first-appearance deduplication of all lists read in order, holds no node twice; there is one index list per input list of the same length, and every index is in range and points at the input node |
| GraphReorder.NoteAllDedup | src/main/kernels/graph_reorder_kernel.cpp:33-39 | the loop's node-by-node numbering continues the deduplication of what was already read |
| GraphReorder.DedupElems | src/main/kernels/graph_reorder_kernel.cpp:30-39 | the unique list holds exactly the nodes that occur in the input |
| GraphReorder.DedupDistinct | src/main/kernels/graph_reorder_kernel.cpp:33-39 | the unique list has no duplicates and is no longer than the input |
| GraphReorder.DedupFirstAppearanceOrder | src/main/kernels/graph_reorder_kernel.cpp:35-38 | earlier positions of the unique list hold nodes whose first occurrence in the input comes earlier |
| GraphReorder.UniqueWithinInput | src/main/kernels/graph_reorder_kernel.cpp:30-39 | the number of unique nodes is at most the total input length, and every unique node occurs in the input |

## Left out

- Locks and reference counts are not modelled. This covers the shard's `mu_`, the handle kernel's `mu_`, the ref-input mutex, `ScopedUnref` and `Unref`. Every operation runs alone on immutable values.
- `PSShardOfScalars::MemoryUsed` (bucket counting) is not modelled: the estimate depends on the host hash table's buckets, so it is an input function `memoryUsed`. The model assumes the estimate depends on the table's contents only. In the source it also depends on bucket history, because `unordered_map::clear` keeps its buckets. `sizeof` and `AllocatedBytes` are inputs too.
- The debug `std::cout` lines in `Find`, `DoInsert` and the kernels have no effect on results and are left out.
- Resource handles resolve by the identity they carry. TensorFlow's `LookupResource` also checks the handle's device and type hash; those checks are left out.
- `ContainerInfo::Init` is not modelled; its outcome is an input. It derives the container and name from node attributes.
- The context status after constructing a shard is an input, and so is `track_allocations`.
- Kernel registration macros and op registration (`REGISTER_KERNEL_BUILDER`, `REGISTER_OP`) are modelled only as the seven supported dtype pairs and as the signatures the kernels are called with.
- `ShardData.Remove`: the source's `Remove` is a stub that returns OK without touching the table. No kernel calls it, and the model keeps it a stub.
- `GraphReorder.Reorder`: node ids are `int64` and positions are written as `int32`. The model uses unbounded integers, so an index overflow past 2^31 - 1 distinct nodes is not modelled. The input is assumed to fit.
- `GraphReorder.Reorder`: the `N` attribute and the input/output list plumbing are not modelled; the input is a sequence of id lists.
- `HandleOp.Compute`: the resource handle payload is modelled by its identity only. `MakeResourceHandle` also records device and type information.
- `ShardData.CheckFindArguments` models TensorFlow 2.x's check, which accepts a scalar default or one of the keys' shape. The package also accepts TensorFlow 1.x, whose check takes only a scalar default. There, a keys-shaped default would be rejected with InvalidArgument.
- `Kernels.Pull` and `Kernels.Push` require what the C++ leaves undefined: at least one default for a non-empty key batch, and at least as many values as keys. The model does not say what happens otherwise.
- `ShapeInference.ValidateResourceHandle`: its lookup branch is never reached in the program as registered. GetPSHandle publishes no handle data, so PSPull's inferred shape is always unknown (`ShapeInference.PullShapeUnknownAsRegistered`).
- Shape inference for PSPush, PSLoad and PSSave is not modelled. These shape functions check the handle's rank and size. PSSave's constrains neither output: values stays of unknown rank, because WithRankAtLeast returns an unknown shape unchanged, and keys is a vector of unknown length. The GraphReorder op's shape function is also not modelled: it returns an unknown shape.
- The graph-reduce and dynamic-partition-softmax kernels are not part of this model. They are floating-point arithmetic.

## Findings

| source | as written | input that shows it | evidently intended | confidence | as-written member | corrected member |
|---|---|---|---|---|---|---|
| src/main/kernels/ps_kernels.cpp:142-143 | PSLoad checks its signature against 2 input types and 0 outputs; the op declares 3 inputs (handle, keys, values) | any PSLoad call whose handle resolves, e.g. an int64→float shard loaded with int64 keys and float values | the 3-input list (handle, key dtype, value dtype); the same list survives, commented out, in PSPull at lines 78-79 | medium, not executed | Kernels.LoadAsWritten | Kernels.Load |
| src/main/kernels/ps_kernels.cpp:173-174 | PSSave checks against 2 inputs and 0 outputs; the op declares 1 input and 2 outputs (keys, values) | any PSSave call whose handle resolves | the 1-input list (handle), with the key and value dtypes as outputs | medium, not executed | Kernels.SaveAsWritten | Kernels.Save |
| src/main/kernels/ps_kernels.cpp:50-51 | PSAddMeta checks against 2 inputs and 0 outputs, but reads input 2 and allocates an output | any PSAddMeta call whose handle resolves | the 3-input list (handle, key dtype, value dtype), with the value dtype as output | medium, not executed | Kernels.AddMetaAsWritten | Kernels.AddMeta |

=== FILE: graph_reorder.dfy ===
/**
 `GraphReorder`: renumber the node ids of N id lists. The ids of all lists,
 read list by list, are deduplicated into one list in order of first
 appearance, and each list is rewritten as positions in that list.
 Node ids are 64-bit in the kernel and unbounded here.
 */
module GraphReorder {
  import opened Sequences

  /** The lists read one after the other. */
  function Flatten(parts: seq<seq<int>>): (flat: seq<int>)
    ensures parts == [] ==> flat == []
  {
    if |parts| == 0 then [] else Flatten(parts[..|parts| - 1]) + parts[|parts| - 1]
  }

  /** The distinct elements of `s`, each where it first appears. */
  function Dedup(s: seq<int>): seq<int> {
    if |s| == 0 then []
    else
      var seen := Dedup(s[..|s| - 1]);
      if s[|s| - 1] in seen then seen else seen + [s[|s| - 1]]
  }

  /** The position of the first occurrence of `x` in `s`. */
  function FirstIndex(s: seq<int>, x: int): (i: nat)
    requires x in s
    ensures i < |s| && s[i] == x && x !in s[..i]
  {
    if s[0] == x then 0
    else
      var i := FirstIndex(s[1..], x);
      assert s[..i + 1] == [s[0]] + s[1..][..i];
      i + 1
  }

  /** Growing a sequence at the end leaves earlier first occurrences alone. */
  lemma FirstIndexExtend(s: seq<int>, y: int, x: int)
    requires x in s
    ensures x in s + [y] && FirstIndex(s + [y], x) == FirstIndex(s, x)
  {
    var i := FirstIndex(s + [y], x);
    var j := FirstIndex(s, x);
    assert (s + [y])[j] == x;
    assert forall k :: 0 <= k < j ==> s[..j][k] == s[k];
    assert forall k :: 0 <= k < i ==> (s + [y])[..i][k] == (s + [y])[k];
  }

  /** Deduplication keeps exactly the elements of its input. */
  lemma {:induction false} DedupElems(s: seq<int>)
    ensures Elems(Dedup(s)) == Elems(s)
  {
    if |s| > 0 {
      var n := |s| - 1;
      DedupElems(s[..n]);
      assert s == s[..n] + [s[n]];
      assert Elems(s) == Elems(s[..n]) + {s[n]};
    }
  }

  /** Deduplication leaves no element twice and is no longer than its input. */
  lemma {:induction false} DedupDistinct(s: seq<int>)
    ensures NoDuplicates(Dedup(s))
    ensures |Dedup(s)| <= |s|
  {
    if |s| > 0 {
      DedupDistinct(s[..|s| - 1]);
    }
  }

  /** The deduplicated elements appear in the order of their first
      occurrences in the input. */
  lemma {:induction false} DedupFirstAppearanceOrder(s: seq<int>, a: nat, b: nat)
    requires a < b < |Dedup(s)|
    ensures Dedup(s)[a] in s && Dedup(s)[b] in s
    ensures FirstIndex(s, Dedup(s)[a]) < FirstIndex(s, Dedup(s)[b])
  {
    var n := |s| - 1;
    var prefix := s[..n];
    var seen := Dedup(prefix);
    assert s == prefix + [s[n]];
    DedupElems(s);
    assert Dedup(s)[a] in Elems(Dedup(s)) && Dedup(s)[b] in Elems(Dedup(s));
    DedupElems(prefix);
    assert Dedup(s)[a] == seen[a] && seen[a] in Elems(seen);
    FirstIndexExtend(prefix, s[n], seen[a]);
    if b < |seen| {
      assert Dedup(s)[b] == seen[b] && seen[b] in Elems(seen);
      DedupFirstAppearanceOrder(prefix, a, b);
      FirstIndexExtend(prefix, s[n], seen[b]);
    } else {
      assert Dedup(s)[b] == s[n] && s[n] !in Elems(prefix);
      assert s[..n] == prefix;
    }
  }

  /** One list more to read. */
  lemma FlattenStep(parts: seq<seq<int>>, i: nat)
    requires i < |parts|
    ensures Flatten(parts[..i + 1]) == Flatten(parts[..i]) + parts[i]
  {
    assert parts[..i + 1][..i] == parts[..i];
  }

  /** Reading one node: a node not in `unique` is appended. */
  function Note(unique: seq<int>, node: int): seq<int> {
    if node in unique then unique else unique + [node]
  }

  /** Reading the nodes one by one, from the first. */
  function NoteAll(unique: seq<int>, nodes: seq<int>): seq<int>
    decreases |nodes|
  {
    if |nodes| == 0 then unique else NoteAll(Note(unique, nodes[0]), nodes[1..])
  }

  /** Reading more nodes continues the deduplication of what was read. */
  lemma {:induction false} NoteAllDedup(read: seq<int>, nodes: seq<int>)
    ensures NoteAll(Dedup(read), nodes) == Dedup(read + nodes)
    decreases |nodes|
  {
    if |nodes| > 0 {
      assert (read + [nodes[0]])[..|read|] == read;
      assert Dedup(read + [nodes[0]]) == Note(Dedup(read), nodes[0]);
      NoteAllDedup(read + [nodes[0]], nodes[1..]);
      assert read + [nodes[0]] + nodes[1..] == read + nodes;
    } else {
      assert read + nodes == read;
    }
  }

  /** `counts` maps each node of `unique` to its position there, and
      nothing else. */
  predicate Numbering(counts: map<int, nat>, unique: seq<int>) {
    && counts.Keys == Elems(unique)
    && forall m {:trigger counts[unique[m]]} :: 0 <= m < |unique| ==> counts[unique[m]] == m
  }

  /** A numbering has as many entries as nodes, which are all distinct. */
  lemma NumberingSize(counts: map<int, nat>, unique: seq<int>)
    requires Numbering(counts, unique)
    ensures NoDuplicates(unique) && |counts| == |unique|
  {
    forall i, j | 0 <= i < j < |unique|
      ensures unique[i] != unique[j]
    {
      assert counts[unique[i]] == i && counts[unique[j]] == j;
    }
    DistinctCardinality(unique);
    assert |counts| == |counts.Keys|;
  }

  /** A node not numbered yet gets the next position. */
  lemma NumberingExtend(counts: map<int, nat>, unique: seq<int>, node: int)
    requires Numbering(counts, unique) && node !in counts
    ensures Numbering(counts[node := |unique|], unique + [node])
  {
  }

  /** A numbered node sits at its number. */
  lemma NumberingLookup(counts: map<int, nat>, unique: seq<int>, node: int)
    requires Numbering(counts, unique) && node in counts
    ensures counts[node] < |unique| && unique[counts[node]] == node
  {
    assert node in Elems(unique);
    var m :| 0 <= m < |unique| && unique[m] == node;
  }

  /** One node of the inner loop: a node seen before keeps its number, a
      new one is appended and numbered `counts.size()`. */
  method Visit(unique: seq<int>, counts: map<int, nat>, node: int)
    returns (unique': seq<int>, counts': map<int, nat>, index: nat)
    requires Numbering(counts, unique)
    ensures Numbering(counts', unique')
    ensures unique' == Note(unique, node) && unique <= unique'
    ensures index < |unique'| && unique'[index] == node
  {
    NumberingSize(counts, unique);
    if node !in counts {
      NumberingExtend(counts, unique, node);
      index := |counts|;
      counts' := counts[node := index];
      unique' := unique + [node];
    } else {
      NumberingLookup(counts, unique, node);
      index := counts[node];
      counts', unique' := counts, unique;
    }
  }

  /** Each of `indices` is a position in `unique` holding the node at the
      same position of `nodes`. */
  predicate PointsAt(indices: seq<nat>, nodes: seq<int>, unique: seq<int>)
    requires |indices| <= |nodes|
  {
    forall j :: 0 <= j < |indices| ==> indices[j] < |unique| && unique[indices[j]] == nodes[j]
  }

  /** Appending the index of the next node, after `unique` grew at the end. */
  lemma PointsAtExtend(indices: seq<nat>, nodes: seq<int>, unique: seq<int>, unique': seq<int>, index: nat)
    requires |indices| < |nodes| && PointsAt(indices, nodes, unique)
    requires unique <= unique'
    requires index < |unique'| && unique'[index] == nodes[|indices|]
    ensures PointsAt(indices + [index], nodes, unique')
  {
  }

  /** The inner loop of `GraphReorderOp::Compute`: renumber one list,
      extending the numbering built so far. */
  method RenumberPart(unique: seq<int>, counts: map<int, nat>, part: seq<int>)
    returns (unique': seq<int>, counts': map<int, nat>, partIndices: seq<nat>)
    requires Numbering(counts, unique)
    ensures unique' == NoteAll(unique, part) && Numbering(counts', unique')
    ensures unique <= unique'
    ensures |partIndices| == |part|
    ensures forall j :: 0 <= j < |part| ==> partIndices[j] < |unique'| && unique'[partIndices[j]] == part[j]
  {
    unique', counts', partIndices := unique, counts, [];
    for j := 0 to |part|
      invariant NoteAll(unique', part[j..]) == NoteAll(unique, part) && Numbering(counts', unique')
      invariant unique <= unique'
      invariant |partIndices| == j && PointsAt(partIndices, part, unique')
    {
      assert part[j..][1..] == part[j + 1..];
      var index, unique'';
      unique'', counts', index := Visit(unique', counts', part[j]);
      PointsAtExtend(partIndices, part, unique', unique'', index);
      unique' := unique'';
      partIndices := partIndices + [index];
    }
  }

  /** Every index list so far points at its own nodes in `unique`. */
  predicate IndexesParts(parts: seq<seq<int>>, indices: seq<seq<nat>>, unique: seq<int>)
    requires |indices| <= |parts|
  {
    && (forall k :: 0 <= k < |indices| ==> |indices[k]| == |parts[k]|)
    && forall k, j :: 0 <= k < |indices| && 0 <= j < |parts[k]| ==>
         indices[k][j] < |unique| && unique[indices[k][j]] == parts[k][j]
  }

  /** Appending the next list's indices, after `unique` grew at the end. */
  lemma IndexesPartsExtend(parts: seq<seq<int>>, indices: seq<seq<nat>>, unique: seq<int>,
                           unique': seq<int>, partIndices: seq<nat>)
    requires |indices| < |parts| && IndexesParts(parts, indices, unique)
    requires unique <= unique'
    requires |partIndices| == |parts[|indices|]|
    requires forall j :: 0 <= j < |partIndices| ==>
               partIndices[j] < |unique'| && unique'[partIndices[j]] == parts[|indices|][j]
    ensures IndexesParts(parts, indices + [partIndices], unique')
  {
  }

  /** `GraphReorderOp::Compute`: the unique nodes in order of first
      appearance, and for each list the positions of its nodes there. */
  method Reorder(parts: seq<seq<int>>) returns (unique: seq<int>, indices: seq<seq<nat>>)
    ensures unique == Dedup(Flatten(parts))
    ensures NoDuplicates(unique)
    ensures |indices| == |parts|
    ensures forall i :: 0 <= i < |parts| ==> |indices[i]| == |parts[i]|
    ensures forall i, j :: 0 <= i < |parts| && 0 <= j < |parts[i]| ==>
              indices[i][j] < |unique| && unique[indices[i][j]] == parts[i][j]
  {
    var counts: map<int, nat> := map[];
    unique := [];
    indices := [];
    for i := 0 to |parts|
      invariant unique == Dedup(Flatten(parts[..i])) && Numbering(counts, unique)
      invariant |indices| == i && IndexesParts(parts, indices, unique)
    {
      FlattenStep(parts, i);
      NoteAllDedup(Flatten(parts[..i]), parts[i]);
      var unique', counts', partIndices := RenumberPart(unique, counts, parts[i]);
      IndexesPartsExtend(parts, indices, unique, unique', partIndices);
      unique, counts := unique', counts';
      indices := indices + [partIndices];
    }
    assert parts[..|parts|] == parts;
    DedupDistinct(Flatten(parts));
  }

  /** The renumbering never has more nodes than the lists hold. */
  lemma UniqueWithinInput(parts: seq<seq<int>>)
    ensures |Dedup(Flatten(parts))| <= |Flatten(parts)|
    ensures Elems(Dedup(Flatten(parts))) == Elems(Flatten(parts))
  {
    DedupDistinct(Flatten(parts));
    DedupElems(Flatten(parts));
  }
}

=== FILE: handle_op.dfy ===
/**
 `GetPSHandleOp`, the kernel that produces a shard handle. Its state is the
 cached handle payload, the "handle is set" flag and the container info; a
 call resolves the shard with lookup-or-create, checks its element types and
 caches the handle, and tearing the kernel down deletes a shard that was
 private to it. The kernel's mutex is not modelled: calls happen one at a
 time.
 */
module HandleOp {
  import opened Outcome
  import opened Tensors
  import opened ShardData
  import opened ResourceRegistry
  import opened Handles

  /** The outcome of `ContainerInfo::Init`: where the shard lives, and
      whether this kernel is its only user. */
  datatype ContainerInfo = ContainerInfo(container: string, name: string, privateToKernel: bool)

  function Id(c: ContainerInfo): Identity {
    (c.container, c.name)
  }

  /** The persistent handle tensor: a two-string vector or a resource handle. */
  datatype Payload =
    | StringPayload(elems: seq<string>)
    | ResourcePayload(id: Identity)

  /** One `GetPSHandleOp` instance for a (key, value) element-type pair. */
  datatype HandleOp = HandleOp(
    keyDtype: DataType,
    valueDtype: DataType,
    outputIsResource: bool,
    isSet: bool,
    cinfo: ContainerInfo,
    payload: Payload)

  /** The (key, value) element-type pairs a handle kernel is registered for. */
  function SupportedPairs(): set<(DataType, DataType)> {
    {(Int32, Float64), (Int32, Float32), (Int32, Int32),
     (Int64, Float64), (Int64, Float32), (Int64, Int32), (Int64, Int64)}
  }

  /** Exactly seven pairs are supported. */
  lemma SevenSupportedPairs()
    ensures |SupportedPairs()| == 7
  {
    var int32Pairs := {(Int32, Float64), (Int32, Float32), (Int32, Int32)};
    var int64Pairs := {(Int64, Float64), (Int64, Float32), (Int64, Int32), (Int64, Int64)};
    assert |int32Pairs| == 3;
    assert |int64Pairs| == 4;
    assert int32Pairs !! int64Pairs;
    assert SupportedPairs() == int32Pairs + int64Pairs;
  }

  /** Building the kernel: no kernel exists for an unsupported pair; a failed
      attribute read fails construction; otherwise the flag starts unset and
      the handle tensor is a fresh scalar resource handle or a fresh
      two-element string vector, following the declared output type. */
  function Construct(keyDtype: DataType, valueDtype: DataType, outputType: DataType, useNodeNameSharing: Result<bool>)
    : (r: Result<HandleOp>)
    ensures r.Success? <==> (keyDtype, valueDtype) in SupportedPairs() && useNodeNameSharing.Success?
    ensures (keyDtype, valueDtype) !in SupportedPairs() ==> r == Failure(NotFound)
    ensures r.Success? ==>
      && r.value.keyDtype == keyDtype && r.value.valueDtype == valueDtype
      && !r.value.isSet
      && (r.value.outputIsResource <==> outputType == Resource)
      && (r.value.payload.StringPayload? <==> outputType != Resource)
      && (r.value.payload.StringPayload? ==> |r.value.payload.elems| == 2)
  {
    if (keyDtype, valueDtype) !in SupportedPairs() then Failure(NotFound)
    else
      var payload := if outputType == Resource then ResourcePayload(("", "")) else StringPayload(["", ""]);
      var _ :- useNodeNameSharing;
      Success(HandleOp(keyDtype, valueDtype, outputType == Resource, false, ContainerInfo("", "", false), payload))
  }

  /** The shard the creator constructs: empty, with the kernel's types. */
  function NewShard<K, V>(op: HandleOp): Shard<K, V> {
    Shard(op.keyDtype, op.valueDtype, map[])
  }

  /** The payload written on the first successful call. */
  function FreshPayload(op: HandleOp, id: Identity): Payload {
    if op.outputIsResource then ResourcePayload(id) else StringPayload(EncodeHandle(id))
  }

  /** The effect of one `Compute`: the kernel's new state, the registry, the
      handle output (or error), and the persistent memory the creator
      recorded, if it recorded any. */
  datatype Step<K, V> = Step(op: HandleOp, reg: Registry<K, V>, output: Result<Payload>, allocation: Option<int>)

  /** The identity a call resolves: the cached one once the flag is set,
      otherwise the one `ContainerInfo::Init` yields. */
  function CallIdentity(op: HandleOp, init: Result<ContainerInfo>): Identity
    requires op.isSet || init.Success?
  {
    if op.isSet then Id(op.cinfo) else Id(init.value)
  }

  /** `GetPSHandleOp::Compute`. The host facilities it calls are inputs:
      `init` is what `ContainerInfo::Init` returns, `construction` the
      context status after constructing a new shard, `memoryUsed` the shard
      memory estimate and `handleBytes` the handle tensor's size. */
  function Compute<K, V>(op: HandleOp, reg: Registry<K, V>, init: Result<ContainerInfo>, construction: Status,
                         track: bool, memoryUsed: map<K, V> -> int, handleBytes: nat): (r: Step<K, V>)
    // Container info is (re)initialised only while the flag is unset; a
    // failure there stops the call with nothing changed.
    ensures !op.isSet && init.Failure? ==> r == Step(op, reg, Failure(init.code), None)
    ensures op.isSet ==> r.op.cinfo == op.cinfo
    ensures !op.isSet && init.Success? ==> r.op.cinfo == init.value
    // Only the container info, the payload and the flag ever change.
    ensures r.op == op.(cinfo := r.op.cinfo, payload := r.op.payload, isSet := r.op.isSet)
    // The flag is set exactly by a call that got through.
    ensures r.op.isSet <==> op.isSet || r.output.Success?
    ensures r.output.Failure? ==> r.op.payload == op.payload
    // Registry: an existing shard is reused; otherwise a new, empty shard of
    // the kernel's types is installed iff its construction succeeded.
    ensures op.isSet || init.Success? ==>
      var id := CallIdentity(op, init);
      && (id in reg ==> r.reg == reg)
      && (id !in reg && construction.Ok? ==> r.reg == reg[id := NewShard(op)])
      && (id !in reg && construction.Error? ==> r.reg == reg && r.output == Failure(construction.code))
    // A shard of other types under the same identity is rejected and left alone.
    ensures op.isSet || init.Success? ==>
      var id := CallIdentity(op, init);
      id in reg && (reg[id].keyDtype != op.keyDtype || reg[id].valueDtype != op.valueDtype) ==>
        r.output == Failure(InvalidArgument) && r.reg == reg
    // On success the handle names a registered shard of the kernel's types,
    // and the output is the cached payload: written once, then reused.
    ensures r.output.Success? ==>
      && r.output.value == r.op.payload
      && Id(r.op.cinfo) in r.reg
      && r.reg[Id(r.op.cinfo)].keyDtype == op.keyDtype
      && r.reg[Id(r.op.cinfo)].valueDtype == op.valueDtype
    ensures r.output.Success? && op.isSet ==> r.op.payload == op.payload
    ensures r.output.Success? && !op.isSet ==> r.op.payload == FreshPayload(op, Id(r.op.cinfo))
    // Memory is recorded only by a creation while tracking is on.
    ensures r.allocation.Some? <==>
      (op.isSet || init.Success?) && CallIdentity(op, init) !in reg && construction.Ok? && track
  {
    if !op.isSet && init.Failure? then Step(op, reg, Failure(init.code), None)
    else
      var cinfo := if op.isSet then op.cinfo else init.value;
      var op1 := op.(cinfo := cinfo);
      var id := Id(cinfo);
      var created: Result<Shard<K, V>> := if construction.Ok? then Success(NewShard(op)) else Failure(construction.code);
      var allocation := if id !in reg && construction.Ok? && track then Some(memoryUsed(map[]) + handleBytes) else None;
      var (reg1, found) := LookupOrCreate(reg, id, created);
      if found.Failure? then Step(op1, reg1, Failure(found.code), allocation)
      else
        var check := CheckShardDataTypes(found.value, op.keyDtype, op.valueDtype);
        if check.Error? then Step(op1, reg1, Failure(check.code), allocation)
        else
          var payload := if op.isSet then op.payload else FreshPayload(op, id);
          Step(op1.(payload := payload, isSet := true), reg1, Success(payload), allocation)
  }

  /** The kernel's destructor: a kernel whose handle is set and whose shard
      is private to it deletes the shard; a failed delete is ignored. */
  function Destroy<K, V>(op: HandleOp, reg: Registry<K, V>): (r: Registry<K, V>)
    ensures op.isSet && op.cinfo.privateToKernel ==> r.Keys == reg.Keys - {Id(op.cinfo)}
    ensures !(op.isSet && op.cinfo.privateToKernel) ==> r == reg
    ensures forall other :: other in r ==> other in reg && r[other] == reg[other]
  {
    if op.isSet && op.cinfo.privateToKernel then Delete(reg, Id(op.cinfo)).0 else reg
  }

  /** The kernel state invariant: the handle tensor has the declared output
      type, a string handle has two elements, and once the flag is set the
      cached handle names the cached container info. */
  predicate Valid(op: HandleOp) {
    && (op.payload.StringPayload? <==> !op.outputIsResource)
    && (op.payload.StringPayload? ==> |op.payload.elems| == 2)
    && (op.isSet ==> op.payload == FreshPayload(op, Id(op.cinfo)))
  }

  /** A newly built kernel satisfies the invariant. */
  lemma ConstructValid(keyDtype: DataType, valueDtype: DataType, outputType: DataType, useNodeNameSharing: Result<bool>)
    ensures var r := Construct(keyDtype, valueDtype, outputType, useNodeNameSharing);
            r.Success? ==> Valid(r.value)
  {
  }

  /** Every call, successful or not, preserves the invariant. */
  lemma ComputeValid<K, V>(op: HandleOp, reg: Registry<K, V>, init: Result<ContainerInfo>, construction: Status,
                           track: bool, memoryUsed: map<K, V> -> int, handleBytes: nat)
    requires Valid(op)
    ensures Valid(Compute(op, reg, init, construction, track, memoryUsed, handleBytes).op)
  {
  }

  /** The string handle a successful call outputs resolves, through the
      reference path of the operation kernels, to the shard it created or
      found. */
  lemma ComputeThenResolve<K, V>(op: HandleOp, reg: Registry<K, V>, init: Result<ContainerInfo>, construction: Status,
                                 track: bool, memoryUsed: map<K, V> -> int, handleBytes: nat)
    requires Valid(op) && !op.outputIsResource
    ensures var r := Compute(op, reg, init, construction, track, memoryUsed, handleBytes);
            r.output.Success? ==>
              && r.output.value.StringPayload?
              && GetPSShard(r.reg, StringHandle(r.output.value.elems)) == Success(Resolved(Id(r.op.cinfo), r.reg[Id(r.op.cinfo)]))
  {
    var r := Compute(op, reg, init, construction, track, memoryUsed, handleBytes);
    if r.output.Success? {
      HandleRoundTrip(Id(r.op.cinfo));
    }
  }

  /** Two calls in a row with the same registry outcome: the second reuses
      the first one's shard and outputs the same payload, whatever the host
      would now report for `ContainerInfo::Init` or construction. */
  lemma SecondComputeReuses<K, V>(op: HandleOp, reg: Registry<K, V>, init: Result<ContainerInfo>, construction: Status,
                                  init2: Result<ContainerInfo>, construction2: Status,
                                  track: bool, memoryUsed: map<K, V> -> int, handleBytes: nat)
    requires Compute(op, reg, init, construction, track, memoryUsed, handleBytes).output.Success?
    ensures var r1 := Compute(op, reg, init, construction, track, memoryUsed, handleBytes);
            var r2 := Compute(r1.op, r1.reg, init2, construction2, track, memoryUsed, handleBytes);
            r2.reg == r1.reg && r2.op == r1.op && r2.output == r1.output && r2.allocation.None?
  {
  }

  /** Tearing down a kernel after a successful call removes a private shard
      and keeps a shared one. */
  lemma DestroyAfterCompute<K, V>(op: HandleOp, reg: Registry<K, V>, init: Result<ContainerInfo>, construction: Status,
                                  track: bool, memoryUsed: map<K, V> -> int, handleBytes: nat)
    requires Compute(op, reg, init, construction, track, memoryUsed, handleBytes).output.Success?
    ensures var r := Compute(op, reg, init, construction, track, memoryUsed, handleBytes);
            var id := Id(r.op.cinfo);
            && (r.op.cinfo.privateToKernel ==> Lookup(Destroy(r.op, r.reg), id) == Failure(NotFound))
            && (!r.op.cinfo.privateToKernel ==> Lookup(Destroy(r.op, r.reg), id) == Success(r.reg[id]))
  {
  }
}

=== FILE: handles.dfy ===
/**
 Turning the handle input of a shard kernel back into a shard: parsing the
 two-string handle, resolving it in the registry, and the dtype check made
 after resolution.
 */
module Handles {
  import opened Outcome
  import opened Tensors
  import opened ShardData
  import opened ResourceRegistry

  /** The handle input of a kernel. A reference handle is a string tensor that
      should hold `[container, name]`; a resource handle names the shard
      directly. */
  datatype HandleTensor =
    | StringHandle(elems: seq<string>)
    | ResourceHandle(container: string, name: string)

  /** The element type the kernel sees on its handle input. */
  function HandleDtype(h: HandleTensor): DataType {
    if h.ResourceHandle? then Resource else StringRef
  }

  /** The string handle written for (container, name): element 0 is the
      container, element 1 the name. */
  function EncodeHandle(id: Identity): (elems: seq<string>)
    ensures |elems| == 2
  {
    [id.0, id.1]
  }

  /** `GetPSShardHandle`: read (container, name) back from a string handle,
      which must have exactly two elements. */
  function GetPSShardHandle(elems: seq<string>): (r: Result<Identity>)
    ensures r.Success? <==> |elems| == 2
    ensures r.Failure? ==> r.code == InvalidArgument
    ensures r.Success? ==> EncodeHandle(r.value) == elems
  {
    if |elems| != 2 then Failure(InvalidArgument)
    else Success((elems[0], elems[1]))
  }

  /** Parsing an encoded handle gives back the identity it encodes. */
  lemma HandleRoundTrip(id: Identity)
    ensures GetPSShardHandle(EncodeHandle(id)) == Success(id)
  {
  }

  /** A resolved shard together with the identity it is registered under. */
  datatype Resolved<K, V> = Resolved(id: Identity, shard: Shard<K, V>)

  /** `GetReferencePSShard`: parse the string handle, then look up exactly the
      parsed identity. A parse failure is returned without a lookup. */
  function GetReferencePSShard<K, V>(reg: Registry<K, V>, elems: seq<string>): (r: Result<Resolved<K, V>>)
    ensures |elems| != 2 ==> r == Failure(InvalidArgument)
    ensures |elems| == 2 ==>
      var id := (elems[0], elems[1]);
      && (r.Success? <==> id in reg)
      && (r.Success? ==> r.value == Resolved(id, reg[id]))
      && (r.Failure? ==> r.code == NotFound)
  {
    var id :- GetPSShardHandle(elems);
    var shard :- Lookup(reg, id);
    Success(Resolved(id, shard))
  }

  /** `GetResourcePSShard`: a resource handle is looked up by the identity it
      carries. */
  function GetResourcePSShard<K, V>(reg: Registry<K, V>, id: Identity): (r: Result<Resolved<K, V>>)
    ensures r.Success? <==> id in reg
    ensures r.Success? ==> r.value == Resolved(id, reg[id])
    ensures r.Failure? ==> r.code == NotFound
  {
    var shard :- Lookup(reg, id);
    Success(Resolved(id, shard))
  }

  /** The identity a handle names, if it is well formed. */
  function HandleIdentity(h: HandleTensor): Result<Identity> {
    match h
    case StringHandle(elems) => GetPSShardHandle(elems)
    case ResourceHandle(c, n) => Success((c, n))
  }

  /** `GetPSShard`: a `Resource`-typed handle takes the resource path, any
      other the reference path. Either way the result is the shard
      registered under the handle's identity. */
  function GetPSShard<K, V>(reg: Registry<K, V>, h: HandleTensor): (r: Result<Resolved<K, V>>)
    ensures r.Success? <==> HandleIdentity(h).Success? && HandleIdentity(h).value in reg
    ensures r.Success? ==> r.value.id == HandleIdentity(h).value && r.value.shard == reg[r.value.id]
    ensures HandleIdentity(h).Failure? ==> r == Failure(InvalidArgument)
    ensures HandleIdentity(h).Success? && r.Failure? ==> r.code == NotFound
  {
    if HandleDtype(h) == Resource then GetResourcePSShard(reg, (h.container, h.name))
    else GetReferencePSShard(reg, h.elems)
  }

  /** `CheckShardDataTypes`: both element types must be the expected ones. */
  function CheckShardDataTypes<K, V>(s: Shard<K, V>, keyDtype: DataType, valueDtype: DataType): (st: Status)
    ensures st.Ok? <==> s.keyDtype == keyDtype && s.valueDtype == valueDtype
    ensures st.Error? ==> st.code == InvalidArgument
  {
    if s.keyDtype != keyDtype || s.valueDtype != valueDtype then Error(InvalidArgument) else Ok
  }
}

=== FILE: kernels.dfy ===
/**
 The operation kernels on a shard handle: PSAddMeta and PSPull (bulk read),
 PSPush (bulk write), PSLoad (replace the table) and PSSave (export it).
 Each resolves the handle first, then validates (Pull and Push do not), then
 touches the table; Push and Load report the change of the shard's memory
 estimate when allocation tracking is on.

 A kernel that fails returns no new registry: the caller's registry, and so
 every shard, is exactly as before. Lookups return no registry at all.
 The memory estimate of a table is an input (`memoryUsed`).
 */
module Kernels {
  import opened Outcome
  import opened Tensors
  import opened Sequences
  import opened ShardData
  import opened ResourceRegistry
  import opened Handles

  /** `expected_input_0_`: a resource handle when the handle input is one,
      otherwise a string reference. */
  function ExpectedInput0(h: HandleTensor): DataType {
    if HandleDtype(h) == Resource then Resource else StringRef
  }

  // ---------------------------------------------------------------------
  // Signatures
  // ---------------------------------------------------------------------

  /** What a lookup kernel is called with: handle, keys and defaults in,
      values out. */
  function FindCallSignature<K, V>(h: HandleTensor, keys: Tensor<K>, defaults: Tensor<V>, outDtype: DataType): Signature {
    Signature([HandleDtype(h), keys.dtype, defaults.dtype], [outDtype])
  }

  /** What PSLoad is called with: handle, keys and values in, nothing out. */
  function LoadCallSignature<K, V>(h: HandleTensor, keys: Tensor<K>, values: Tensor<V>): Signature {
    Signature([HandleDtype(h), keys.dtype, values.dtype], [])
  }

  /** What PSSave is called with: the handle in, keys and values out. */
  function SaveCallSignature(h: HandleTensor, keysOut: DataType, valuesOut: DataType): Signature {
    Signature([HandleDtype(h)], [keysOut, valuesOut])
  }

  /** The signature PSAddMeta, PSLoad and PSSave check as written: the handle
      and the key type in, nothing out. */
  function AsWrittenSignature<K, V>(h: HandleTensor, s: Shard<K, V>): Signature {
    Signature([ExpectedInput0(h), s.keyDtype], [])
  }

  function AddMetaSignature<K, V>(h: HandleTensor, s: Shard<K, V>): Signature {
    Signature([ExpectedInput0(h), s.keyDtype, s.valueDtype], [s.valueDtype])
  }

  function LoadSignature<K, V>(h: HandleTensor, s: Shard<K, V>): Signature {
    Signature([ExpectedInput0(h), s.keyDtype, s.valueDtype], [])
  }

  function SaveSignature<K, V>(h: HandleTensor, s: Shard<K, V>): Signature {
    Signature([ExpectedInput0(h)], [s.keyDtype, s.valueDtype])
  }

  // ---------------------------------------------------------------------
  // PSAddMeta and PSPull
  // ---------------------------------------------------------------------

  /** Allocate the lookup output (keys shape without the key shape, plus the
      value shape) and fill it with `Find`. The keys, the output and the
      defaults are read with the shard's element types; the caller must
      supply a default whenever there is a key. */
  function FindInto<K, V>(s: Shard<K, V>, keys: Tensor<K>, defaults: Tensor<V>, outDtype: DataType): (r: Result<Tensor<V>>)
    requires keys.WellFormed()
    requires keys.dtype == s.keyDtype && outDtype == s.valueDtype && defaults.dtype == s.valueDtype ==>
      |keys.data| == 0 || |defaults.data| > 0
    ensures r.Success? <==> keys.dtype == s.keyDtype && outDtype == s.valueDtype && defaults.dtype == s.valueDtype
    ensures r.Failure? ==> r.code == Fatal
    ensures r.Success? ==>
      && r.value.dtype == s.valueDtype
      && r.value.shape == keys.shape
      && r.value.WellFormed()
      && r.value.data == Find(s, keys.data, defaults.data)
  {
    var shape := ValueShapeFor(keys.shape);
    var k :- Flat(keys, s.keyDtype);
    :- if outDtype == s.valueDtype then Ok else Error(Fatal);
    var d :- Flat(defaults, s.valueDtype);
    Success(Tensor(outDtype, shape, Find(s, k, d)))
  }

  /** PSAddMeta after resolution, checking `expected` as its signature. */
  function AddMetaResolved<K, V>(s: Shard<K, V>, h: HandleTensor, keys: Tensor<K>, defaults: Tensor<V>,
                                 outDtype: DataType, expected: Signature): Result<Tensor<V>>
    requires keys.WellFormed() && defaults.WellFormed()
  {
    var call := FindCallSignature(h, keys, defaults, outDtype);
    :- MatchSignature(expected, call);
    :- CheckFindArguments(s, keys, defaults);
    FindInto(s, keys, defaults, outDtype)
  }

  /** PSAddMeta: resolve, check the signature and the find arguments, look
      up. With the full signature every failure is a status: a bad handle
      is InvalidArgument, a missing shard NotFound, wrong types or a
      default of the wrong shape InvalidArgument. */
  function AddMeta<K, V>(reg: Registry<K, V>, h: HandleTensor, keys: Tensor<K>, defaults: Tensor<V>, outDtype: DataType)
    : (r: Result<Tensor<V>>)
    requires keys.WellFormed() && defaults.WellFormed()
    ensures GetPSShard(reg, h).Failure? ==> r == Failure(GetPSShard(reg, h).code)
    ensures GetPSShard(reg, h).Success? ==>
      var s := GetPSShard(reg, h).value.shard;
      && (r.Success? <==>
            && keys.dtype == s.keyDtype && defaults.dtype == s.valueDtype && outDtype == s.valueDtype
            && (defaults.shape == [] || defaults.shape == keys.shape))
      // Only a string reference declared for string values passes the
      // signature check and then aborts when the output is read.
      && (r.Failure? && r.code != InvalidArgument ==>
            r.code == Fatal && s.valueDtype == String && outDtype == StringRef)
      && (r.Failure? && s.valueDtype != String ==> r.code == InvalidArgument)
      && (r.Success? ==>
            && r.value.shape == keys.shape
            && r.value.dtype == s.valueDtype
            && r.value.data == Find(s, keys.data, defaults.data))
  {
    var res :- GetPSShard(reg, h);
    AddMetaAbortsOnlyOnStringRef(res.shard, h, keys, defaults, outDtype);
    AddMetaResolved(res.shard, h, keys, defaults, outDtype, AddMetaSignature(h, res.shard))
  }

  /** With the full signature the declared output type may differ from the
      shard's value type only as a string reference to string values; that
      is the one call that passes every check and then aborts. */
  lemma AddMetaAbortsOnlyOnStringRef<K, V>(s: Shard<K, V>, h: HandleTensor, keys: Tensor<K>, defaults: Tensor<V>,
                                           outDtype: DataType)
    requires keys.WellFormed() && defaults.WellFormed()
    ensures var r := AddMetaResolved(s, h, keys, defaults, outDtype, AddMetaSignature(h, s));
      r.Failure? && r.code != InvalidArgument ==>
        r.code == Fatal && s.valueDtype == String && outDtype == StringRef
  {
    var call := FindCallSignature(h, keys, defaults, outDtype);
    if MatchSignature(AddMetaSignature(h, s), call).Ok? {
      assert TypesCompatible(s.valueDtype, call.outputs[0]);
    }
  }

  /** PSAddMeta as written: it checks only two input types and no output
      type, against a kernel with three inputs and one output, so it
      rejects every call that resolves its shard. */
  function AddMetaAsWritten<K, V>(reg: Registry<K, V>, h: HandleTensor, keys: Tensor<K>, defaults: Tensor<V>,
                                  outDtype: DataType): (r: Result<Tensor<V>>)
    requires keys.WellFormed() && defaults.WellFormed()
    ensures GetPSShard(reg, h).Failure? ==> r == Failure(GetPSShard(reg, h).code)
    ensures GetPSShard(reg, h).Success? ==> r == Failure(InvalidArgument)
  {
    var res :- GetPSShard(reg, h);
    LengthMismatchRejected(AsWrittenSignature(h, res.shard), FindCallSignature(h, keys, defaults, outDtype));
    AddMetaResolved(res.shard, h, keys, defaults, outDtype, AsWrittenSignature(h, res.shard))
  }

  /** PSPull reads the defaults unchecked: whenever the reads succeed, a
      default must exist for a non-empty key batch. */
  predicate PullDefined<K, V>(reg: Registry<K, V>, h: HandleTensor, keys: Tensor<K>, defaults: Tensor<V>, outDtype: DataType) {
    match GetPSShard(reg, h)
    case Failure(_) => true
    case Success(res) =>
      keys.dtype == res.shard.keyDtype && outDtype == res.shard.valueDtype && defaults.dtype == res.shard.valueDtype ==>
        |keys.data| == 0 || |defaults.data| > 0
  }

  /** PSPull: resolve and look up, with no signature or argument check. Once
      the shard is resolved it never fails with a status; tensors of the
      wrong element type abort instead. */
  function Pull<K, V>(reg: Registry<K, V>, h: HandleTensor, keys: Tensor<K>, defaults: Tensor<V>, outDtype: DataType)
    : (r: Result<Tensor<V>>)
    requires keys.WellFormed()
    requires PullDefined(reg, h, keys, defaults, outDtype)
    ensures GetPSShard(reg, h).Failure? ==> r == Failure(GetPSShard(reg, h).code)
    ensures GetPSShard(reg, h).Success? ==>
      var s := GetPSShard(reg, h).value.shard;
      && (r.Success? <==> keys.dtype == s.keyDtype && defaults.dtype == s.valueDtype && outDtype == s.valueDtype)
      && (r.Failure? ==> r.code == Fatal)
      && (r.Success? ==>
            && r.value.shape == keys.shape
            && r.value.dtype == s.valueDtype
            && r.value.WellFormed()
            && r.value.data == Find(s, keys.data, defaults.data))
  {
    var res :- GetPSShard(reg, h);
    FindInto(res.shard, keys, defaults, outDtype)
  }

  // ---------------------------------------------------------------------
  // PSPush and PSLoad
  // ---------------------------------------------------------------------

  /** The effect of a successful write: the registry with the written shard,
      and the recorded memory change when tracking is on. */
  datatype Update<K, V> = Update(reg: Registry<K, V>, memoryDelta: Option<int>)

  /** The memory change recorded around a write: after minus before, and only
      when tracking. */
  function MemoryDelta<K, V>(track: bool, memoryUsed: map<K, V> -> int, before: map<K, V>, after: map<K, V>): Option<int> {
    if track then Some(memoryUsed(after) - memoryUsed(before)) else None
  }

  /** PSPush reads one value per key unchecked: whenever the reads succeed
      there must be enough values. */
  predicate PushDefined<K, V>(reg: Registry<K, V>, h: HandleTensor, keys: Tensor<K>, values: Tensor<V>) {
    match GetPSShard(reg, h)
    case Failure(_) => true
    case Success(res) =>
      keys.dtype == res.shard.keyDtype && values.dtype == res.shard.valueDtype ==> |keys.data| <= |values.data|
  }

  /** PSPush: resolve and insert, with no signature, type or shape check;
      tensors of the wrong element type abort. */
  function Push<K, V>(reg: Registry<K, V>, h: HandleTensor, keys: Tensor<K>, values: Tensor<V>,
                      track: bool, memoryUsed: map<K, V> -> int): (r: Result<Update<K, V>>)
    requires PushDefined(reg, h, keys, values)
    ensures GetPSShard(reg, h).Failure? ==> r == Failure(GetPSShard(reg, h).code)
    ensures GetPSShard(reg, h).Success? ==>
      var Resolved(id, s) := GetPSShard(reg, h).value;
      && (r.Success? <==> keys.dtype == s.keyDtype && values.dtype == s.valueDtype)
      && (r.Failure? ==> r.code == Fatal)
      && (r.Success? ==>
            && ChangesOnly(reg, r.value.reg, id)
            && r.value.reg[id] == Insert(s, keys.data, values.data)
            && r.value.memoryDelta == MemoryDelta(track, memoryUsed, s.table, r.value.reg[id].table))
  {
    var res :- GetPSShard(reg, h);
    var s := res.shard;
    var k :- Flat(keys, s.keyDtype);
    var v :- Flat(values, s.valueDtype);
    var s1 := Insert(s, k, v);
    ReplaceChangesOnly(reg, res.id, s1);
    Success(Update(reg[res.id := s1], MemoryDelta(track, memoryUsed, s.table, s1.table)))
  }

  /** A PSPush of tensors of the shard's types, with a value per key,
      succeeds; a PSPull through the same handle right after it reads back
      the pushed values: for each key, the value at its last occurrence in
      the batch, whatever the defaults. */
  lemma {:induction false} PullAfterPush<K, V>(reg: Registry<K, V>, h: HandleTensor, keys: Tensor<K>, values: Tensor<V>,
                                              track: bool, memoryUsed: map<K, V> -> int, defaults: Tensor<V>)
    requires keys.WellFormed()
    requires GetPSShard(reg, h).Success?
    requires keys.dtype == GetPSShard(reg, h).value.shard.keyDtype
    requires values.dtype == defaults.dtype == GetPSShard(reg, h).value.shard.valueDtype
    requires |keys.data| <= |values.data|
    requires |keys.data| == 0 || |defaults.data| > 0
    ensures PushDefined(reg, h, keys, values) && Push(reg, h, keys, values, track, memoryUsed).Success?
    ensures var reg1 := Push(reg, h, keys, values, track, memoryUsed).value.reg;
            var valueDtype := GetPSShard(reg, h).value.shard.valueDtype;
            && PullDefined(reg1, h, keys, defaults, valueDtype)
            && Pull(reg1, h, keys, defaults, valueDtype).Success?
            && forall i :: 0 <= i < |keys.data| && IsLastOccurrence(keys.data, i) ==>
                 Pull(reg1, h, keys, defaults, valueDtype).value.data[i] == values.data[i]
  {
    var Resolved(id, s) := GetPSShard(reg, h).value;
    var reg1 := Push(reg, h, keys, values, track, memoryUsed).value.reg;
    assert GetPSShard(reg1, h) == Success(Resolved(id, Insert(s, keys.data, values.data)));
    FindAfterInsert(s, keys.data, values.data, defaults.data);
  }

  /** PSLoad after resolution, checking `expected` as its signature. */
  function LoadResolved<K, V>(reg: Registry<K, V>, res: Resolved<K, V>, h: HandleTensor, keys: Tensor<K>, values: Tensor<V>,
                              track: bool, memoryUsed: map<K, V> -> int, expected: Signature): (r: Result<Update<K, V>>)
    requires keys.WellFormed() && values.WellFormed()
    requires res.id in reg
    ensures r.Success? <==>
      MatchSignature(expected, LoadCallSignature(h, keys, values)).Ok? && CheckKeyAndValueTensors(res.shard, keys, values).Ok?
    ensures r.Failure? ==> r.code == InvalidArgument
    ensures r.Success? ==>
      var s1 := ImportValues(res.shard, keys.data, values.data);
      && ChangesOnly(reg, r.value.reg, res.id)
      && r.value.reg[res.id] == s1
      && r.value.memoryDelta == MemoryDelta(track, memoryUsed, res.shard.table, s1.table)
  {
    var s := res.shard;
    :- MatchSignature(expected, LoadCallSignature(h, keys, values));
    :- CheckKeyAndValueTensors(s, keys, values);
    var s1 := ImportValues(s, keys.data, values.data);
    ReplaceChangesOnly(reg, res.id, s1);
    Success(Update(reg[res.id := s1], MemoryDelta(track, memoryUsed, s.table, s1.table)))
  }

  /** PSLoad: resolve, check the signature and the key/value tensors, then
      replace the table by the batch. Everything is validated before the
      table is cleared. */
  function Load<K, V>(reg: Registry<K, V>, h: HandleTensor, keys: Tensor<K>, values: Tensor<V>,
                      track: bool, memoryUsed: map<K, V> -> int): (r: Result<Update<K, V>>)
    requires keys.WellFormed() && values.WellFormed()
    ensures GetPSShard(reg, h).Failure? ==> r == Failure(GetPSShard(reg, h).code)
    ensures GetPSShard(reg, h).Success? ==>
      var Resolved(id, s) := GetPSShard(reg, h).value;
      && (r.Success? <==> keys.dtype == s.keyDtype && values.dtype == s.valueDtype && values.shape == keys.shape)
      && (r.Failure? ==> r.code == InvalidArgument)
      && (r.Success? ==>
            && ChangesOnly(reg, r.value.reg, id)
            && r.value.reg[id].keyDtype == s.keyDtype
            && r.value.reg[id].valueDtype == s.valueDtype
            && r.value.reg[id].table.Keys == Elems(keys.data)
            && (forall i :: 0 <= i < |keys.data| && IsLastOccurrence(keys.data, i) ==>
                  r.value.reg[id].table[keys.data[i]] == values.data[i])
            && r.value.memoryDelta == MemoryDelta(track, memoryUsed, s.table, r.value.reg[id].table))
  {
    var res :- GetPSShard(reg, h);
    LoadSignatureMatches(h, res.shard, keys, values);
    LoadResolved(reg, res, h, keys, values, track, memoryUsed, LoadSignature(h, res.shard))
  }

  /** Tensors of exactly the shard's types pass PSLoad's full signature. */
  lemma LoadSignatureMatches<K, V>(h: HandleTensor, s: Shard<K, V>, keys: Tensor<K>, values: Tensor<V>)
    ensures keys.dtype == s.keyDtype && values.dtype == s.valueDtype ==>
      MatchSignature(LoadSignature(h, s), LoadCallSignature(h, keys, values)) == Ok
  {
  }

  /** PSLoad as written: it checks only two input types against a kernel with
      three inputs, so it rejects every call that resolves its shard and no
      snapshot can ever be loaded. */
  function LoadAsWritten<K, V>(reg: Registry<K, V>, h: HandleTensor, keys: Tensor<K>, values: Tensor<V>,
                               track: bool, memoryUsed: map<K, V> -> int): (r: Result<Update<K, V>>)
    requires keys.WellFormed() && values.WellFormed()
    ensures GetPSShard(reg, h).Failure? ==> r == Failure(GetPSShard(reg, h).code)
    ensures GetPSShard(reg, h).Success? ==> r == Failure(InvalidArgument)
  {
    var res :- GetPSShard(reg, h);
    LengthMismatchRejected(AsWrittenSignature(h, res.shard), LoadCallSignature(h, keys, values));
    LoadResolved(reg, res, h, keys, values, track, memoryUsed, AsWrittenSignature(h, res.shard))
  }

  // ---------------------------------------------------------------------
  // PSSave
  // ---------------------------------------------------------------------

  /** The outputs of a save of `s`: two vectors of the table's size, of the
      shard's types, listing every entry once. */
  predicate IsSaveOutput<K, V(==)>(s: Shard<K, V>, keys: Tensor<K>, values: Tensor<V>) {
    && keys.dtype == s.keyDtype && values.dtype == s.valueDtype
    && keys.shape == [|s.table|] && values.shape == [|s.table|]
    && IsExportOf(s.table, keys.data, values.data)
  }

  /** PSSave after resolution, checking `expected` as its signature. The
      outputs are allocated with the declared output types and written as
      the shard's types. */
  method SaveResolved<K, V(==)>(s: Shard<K, V>, h: HandleTensor, keysOut: DataType, valuesOut: DataType, expected: Signature)
    returns (r: Result<(Tensor<K>, Tensor<V>)>)
    ensures MatchSignature(expected, SaveCallSignature(h, keysOut, valuesOut)).Error? ==> r == Failure(InvalidArgument)
    ensures MatchSignature(expected, SaveCallSignature(h, keysOut, valuesOut)).Ok? && r.Failure? ==> r.code == Fatal
    ensures r.Success? <==>
      MatchSignature(expected, SaveCallSignature(h, keysOut, valuesOut)).Ok? && keysOut == s.keyDtype && valuesOut == s.valueDtype
    ensures r.Success? ==> IsSaveOutput(s, r.value.0, r.value.1)
  {
    var st := MatchSignature(expected, SaveCallSignature(h, keysOut, valuesOut));
    if st.Error? {
      return Failure(st.code);
    }
    if keysOut != s.keyDtype || valuesOut != s.valueDtype {
      return Failure(Fatal);
    }
    var keys, values := ExportValues(s);
    r := Success((Tensor(keysOut, [|keys|], keys), Tensor(valuesOut, [|values|], values)));
  }

  /** PSSave: resolve, check the signature, export every entry once. */
  method Save<K, V(==)>(reg: Registry<K, V>, h: HandleTensor, keysOut: DataType, valuesOut: DataType)
    returns (r: Result<(Tensor<K>, Tensor<V>)>)
    ensures GetPSShard(reg, h).Failure? ==> r == Failure(GetPSShard(reg, h).code)
    ensures GetPSShard(reg, h).Success? ==>
      var s := GetPSShard(reg, h).value.shard;
      && (r.Success? <==> keysOut == s.keyDtype && valuesOut == s.valueDtype)
      // Only a string reference declared for a string part passes the
      // signature check and then aborts when the output is written.
      && (r.Failure? && r.code != InvalidArgument ==>
            r.code == Fatal && (s.keyDtype == String || s.valueDtype == String))
      && (r.Failure? && s.keyDtype != String && s.valueDtype != String ==> r.code == InvalidArgument)
      && (r.Success? ==> IsSaveOutput(s, r.value.0, r.value.1))
  {
    var res := GetPSShard(reg, h);
    if res.Failure? {
      return Failure(res.code);
    }
    var s := res.value.shard;
    SaveAbortsOnlyOnStringRef(h, s, keysOut, valuesOut);
    r := SaveResolved(s, h, keysOut, valuesOut, SaveSignature(h, s));
  }

  /** Declared output types that pass PSSave's full signature but are not
      the shard's types can only be string references to string parts. */
  lemma SaveAbortsOnlyOnStringRef<K, V>(h: HandleTensor, s: Shard<K, V>, keysOut: DataType, valuesOut: DataType)
    ensures MatchSignature(SaveSignature(h, s), SaveCallSignature(h, keysOut, valuesOut)).Ok? &&
            !(keysOut == s.keyDtype && valuesOut == s.valueDtype) ==>
              s.keyDtype == String || s.valueDtype == String
  {
    var call := SaveCallSignature(h, keysOut, valuesOut);
    if MatchSignature(SaveSignature(h, s), call).Ok? {
      assert TypesCompatible(s.keyDtype, call.outputs[0]) && TypesCompatible(s.valueDtype, call.outputs[1]);
    }
  }

  /** PSSave as written: it declares two inputs and no outputs for a kernel
      with one input and two outputs, so it rejects every resolved call. */
  method SaveAsWritten<K, V(==)>(reg: Registry<K, V>, h: HandleTensor, keysOut: DataType, valuesOut: DataType)
    returns (r: Result<(Tensor<K>, Tensor<V>)>)
    ensures GetPSShard(reg, h).Failure? ==> r == Failure(GetPSShard(reg, h).code)
    ensures GetPSShard(reg, h).Success? ==> r == Failure(InvalidArgument)
  {
    var res := GetPSShard(reg, h);
    if res.Failure? {
      return Failure(res.code);
    }
    var s := res.value.shard;
    LengthMismatchRejected(AsWrittenSignature(h, s), SaveCallSignature(h, keysOut, valuesOut));
    r := SaveResolved(s, h, keysOut, valuesOut, AsWrittenSignature(h, s));
  }

  // ---------------------------------------------------------------------
  // The snapshot round trip
  // ---------------------------------------------------------------------

  /** What a save of `s` produces loads into any shard of the same types and
      leaves it holding exactly the table of `s`. */
  lemma {:induction false} SaveOutputLoads<K, V>(reg: Registry<K, V>, h: HandleTensor, s: Shard<K, V>,
                                                 keys: Tensor<K>, values: Tensor<V>,
                                                 track: bool, memoryUsed: map<K, V> -> int)
    requires IsSaveOutput(s, keys, values)
    requires GetPSShard(reg, h).Success?
    requires GetPSShard(reg, h).value.shard.keyDtype == s.keyDtype
    requires GetPSShard(reg, h).value.shard.valueDtype == s.valueDtype
    ensures keys.WellFormed() && values.WellFormed()
    ensures Load(reg, h, keys, values, track, memoryUsed).Success?
    ensures Load(reg, h, keys, values, track, memoryUsed).value.reg[GetPSShard(reg, h).value.id] == s
  {
    var Resolved(id, t) := GetPSShard(reg, h).value;
    assert keys.WellFormed() && values.WellFormed();
    var r := Load(reg, h, keys, values, track, memoryUsed);
    assert r.Success?;
    ExportDeterminesTable(s.table, keys.data, values.data, r.value.reg[id].table);
  }

  /** Load(Save()) on the same handle leaves the registry unchanged. */
  lemma {:induction false} LoadOfSaveRestores<K, V>(reg: Registry<K, V>, h: HandleTensor, keys: Tensor<K>, values: Tensor<V>,
                                                    track: bool, memoryUsed: map<K, V> -> int)
    requires GetPSShard(reg, h).Success?
    requires IsSaveOutput(GetPSShard(reg, h).value.shard, keys, values)
    ensures keys.WellFormed() && values.WellFormed()
    ensures Load(reg, h, keys, values, track, memoryUsed).Success?
    ensures Load(reg, h, keys, values, track, memoryUsed).value.reg == reg
  {
    var res := GetPSShard(reg, h).value;
    SaveOutputLoads(reg, h, res.shard, keys, values, track, memoryUsed);
    assert reg[res.id := res.shard] == reg;
  }
}

=== FILE: outcome.dfy ===
/**
 Status and result values of the parameter-server kernels. The host engine
 reports errors as a status carrying a code; `OP_REQUIRES_OK` and
 `TF_RETURN_IF_ERROR` stop at the first failing status and hand it to the
 caller, which is what `:-` does here.
 */
module Outcome {

  /** The error codes the modelled code can produce. `Fatal` stands for a
      failed runtime CHECK in the host (a tensor read with the wrong element
      type), which aborts the process instead of returning a status. */
  datatype Code = InvalidArgument | NotFound | Fatal

  datatype Option<+T> = None | Some(value: T)

  /** A value-carrying status (`StatusOr`). */
  datatype Result<+T> = Success(value: T) | Failure(code: Code) {
    predicate IsFailure() {
      Failure?
    }

    function PropagateFailure<U>(): Result<U>
      requires Failure?
    {
      Failure(code)
    }

    function Extract(): T
      requires Success?
    {
      value
    }
  }

  /** A plain status (`Status::OK()` or an error). */
  datatype Status = Ok | Error(code: Code) {
    predicate IsFailure() {
      Error?
    }

    function PropagateFailure<U>(): Result<U>
      requires Error?
    {
      Failure(code)
    }

    /** The first failure of `this` and `next`: checks run in order and the
        first one that fails decides. */
    function Then(next: Status): Status {
      if Error? then this else next
    }
  }
}

=== FILE: registry.dfy ===
/**
 The host's resource manager, restricted to how the shard code uses it: a
 process-wide store from (container, name) to a shard, with lookup,
 lookup-or-create and delete. Reference counting and the store's own lock
 are not modelled; calls happen one at a time.
 */
module ResourceRegistry {
  import opened Outcome
  import opened ShardData

  /** The identity of a shard: (container, name). */
  type Identity = (string, string)

  type Registry<K, V> = map<Identity, Shard<K, V>>

  /** `ResourceMgr::Lookup`: the shard registered under `id`, or NotFound. */
  function Lookup<K, V>(reg: Registry<K, V>, id: Identity): (r: Result<Shard<K, V>>)
    ensures r.Success? <==> id in reg
    ensures r.Success? ==> r.value == reg[id]
    ensures r.Failure? ==> r.code == NotFound
  {
    if id in reg then Success(reg[id]) else Failure(NotFound)
  }

  /** `ResourceMgr::LookupOrCreate`: an existing shard is returned and the
      registry left alone; otherwise the creator's outcome decides: its
      error is returned with nothing registered, its shard is registered
      under `id` and returned. `created` is what the creator would produce;
      it is used only when `id` is absent. */
  function LookupOrCreate<K, V>(reg: Registry<K, V>, id: Identity, created: Result<Shard<K, V>>)
    : (r: (Registry<K, V>, Result<Shard<K, V>>))
    ensures id in reg ==> r.0 == reg && r.1 == Success(reg[id])
    ensures r.1.Success? <==> id in reg || created.Success?
    ensures r.1.Success? ==> id in r.0 && r.0[id] == r.1.value
    ensures r.1.Failure? ==> r.0 == reg && r.1 == created
    ensures r.0.Keys == reg.Keys + (if r.1.Success? then {id} else {})
    ensures forall other :: other in reg ==> other in r.0 && r.0[other] == reg[other]
  {
    if id in reg then (reg, Success(reg[id]))
    else match created
      case Failure(code) => (reg, Failure(code))
      case Success(shard) => (reg[id := shard], Success(shard))
  }

  /** `ResourceMgr::Delete`: unregister `id`; NotFound when it was absent. */
  function Delete<K, V>(reg: Registry<K, V>, id: Identity): (r: (Registry<K, V>, Status))
    ensures r.0.Keys == reg.Keys - {id}
    ensures forall other :: other in r.0 ==> r.0[other] == reg[other]
    ensures r.1.Ok? <==> id in reg
    ensures r.1.Error? ==> r.1.code == NotFound
  {
    if id in reg then (reg - {id}, Ok) else (reg, Error(NotFound))
  }

  /** `after` registers the same identities as `before` and differs from it
      at most in the shard under `id`. */
  ghost predicate ChangesOnly<K, V>(before: Registry<K, V>, after: Registry<K, V>, id: Identity) {
    && after.Keys == before.Keys
    && forall other :: other in before && other != id ==> after[other] == before[other]
  }

  /** Replacing a registered shard changes nothing else. */
  lemma ReplaceChangesOnly<K, V>(reg: Registry<K, V>, id: Identity, shard: Shard<K, V>)
    requires id in reg
    ensures ChangesOnly(reg, reg[id := shard], id) && reg[id := shard][id] == shard
  {
  }

  /** Creation is idempotent: a second lookup-or-create of the same identity,
      whatever its creator would do, returns the shard the first one
      returned and changes nothing. */
  lemma LookupOrCreateIdempotent<K, V>(reg: Registry<K, V>, id: Identity,
                                       created1: Result<Shard<K, V>>, created2: Result<Shard<K, V>>)
    requires LookupOrCreate(reg, id, created1).1.Success?
    ensures var (reg1, first) := LookupOrCreate(reg, id, created1);
            LookupOrCreate(reg1, id, created2) == (reg1, first)
  {
  }

  /** What lookup-or-create returned is what a later lookup finds. */
  lemma LookupAfterCreate<K, V>(reg: Registry<K, V>, id: Identity, created: Result<Shard<K, V>>)
    requires LookupOrCreate(reg, id, created).1.Success?
    ensures var (reg1, r) := LookupOrCreate(reg, id, created);
            Lookup(reg1, id) == r
  {
  }
}

=== FILE: sequences.dfy ===
/**
 Facts about plain sequences shared by the shard table and the graph
 reordering: the set of elements, distinctness, and how the two relate in
 size.
 */
module Sequences {
  /** The set of elements of a sequence. */
  function Elems<T>(s: seq<T>): set<T> {
    set x | x in s
  }

  predicate NoDuplicates<T(==)>(s: seq<T>) {
    forall i, j :: 0 <= i < j < |s| ==> s[i] != s[j]
  }

  /** A duplicate-free sequence has as many distinct elements as positions. */
  lemma {:induction false} DistinctCardinality<T>(s: seq<T>)
    requires NoDuplicates(s)
    ensures |Elems(s)| == |s|
  {
    if |s| > 0 {
      var n := |s| - 1;
      assert s == s[..n] + [s[n]];
      assert Elems(s) == Elems(s[..n]) + {s[n]};
      assert s[n] !in Elems(s[..n]);
      DistinctCardinality(s[..n]);
    }
  }

  /** A sequence has at most as many distinct elements as positions. */
  lemma {:induction false} DistinctElemsBound<T>(s: seq<T>)
    ensures |Elems(s)| <= |s|
  {
    if |s| > 0 {
      var n := |s| - 1;
      assert s == s[..n] + [s[n]];
      assert Elems(s) == Elems(s[..n]) + {s[n]};
      DistinctElemsBound(s[..n]);
    }
  }
}

=== FILE: shape_inference.dfy ===
/**
 Graph-construction shape inference for the shard operations: the shape and
 element type of a lookup's output derived from the handle's published
 key/value shapes and types, and the fixed shape of the handle itself.
 Shapes here may be partly unknown.
 */
module ShapeInference {
  import opened Outcome
  import opened Tensors
  import ShardData
  import Handles
  import ResourceRegistry

  datatype Dimension = UnknownDim | KnownDim(size: nat)

  /** A shape of unknown rank, or a list of possibly unknown dimensions. */
  datatype ShapeHandle = UnknownShape | KnownShape(dims: seq<Dimension>)

  datatype ShapeAndType = ShapeAndType(shape: ShapeHandle, dtype: DataType)

  /** The inference view of a fully known shape. */
  function FromShape(s: Shape): (r: ShapeHandle)
    ensures r.KnownShape? && |r.dims| == |s|
    ensures forall i :: 0 <= i < |s| ==> r.dims[i] == KnownDim(s[i])
  {
    KnownShape(seq(|s|, i requires 0 <= i < |s| => KnownDim(s[i])))
  }

  /** `InferenceContext::Concatenate`: unknown if either rank is unknown. */
  function Concatenate(a: ShapeHandle, b: ShapeHandle): ShapeHandle {
    if a.KnownShape? && b.KnownShape? then KnownShape(a.dims + b.dims) else UnknownShape
  }

  /** Overwrite the last `|suffix|` dimensions of `dims` with `suffix`, one
      `ReplaceDim` per suffix dimension, starting at suffix position `d`. */
  function ReplaceSuffix(dims: seq<Dimension>, suffix: seq<Dimension>, d: nat): (r: seq<Dimension>)
    requires |suffix| <= |dims| && d <= |suffix|
    ensures |r| == |dims|
    ensures r[..|dims| - |suffix|] == dims[..|dims| - |suffix|]
    decreases |suffix| - d
  {
    if d == |suffix| then dims
    else ReplaceSuffix(dims[|dims| - |suffix| + d := suffix[d]], suffix, d + 1)
  }

  /** The output shape of a lookup when both ranks are known: the keys must
      be at least as long as the key suffix, and the output is the keys
      without their suffix followed by the value shape. */
  function LookupShape(keySuffix: seq<Dimension>, valueShape: ShapeHandle, keys: seq<Dimension>): Result<ShapeHandle> {
    var keysRank := |keys|;
    var suffixRank := |keySuffix|;
    if keysRank < suffixRank then Failure(InvalidArgument)
    else
      var replaced := ReplaceSuffix(keys, keySuffix, 0);
      Success(Concatenate(KnownShape(replaced[..keysRank - suffixRank]), valueShape))
  }

  /** `ValidateResourceHandle`. `handleData` is the handle's published
      (key, value) shapes and types, if any; the two attributes are read
      with `GetAttr`, which can fail. */
  function ValidateResourceHandle(handleData: Option<seq<ShapeAndType>>, keys: ShapeHandle,
                                  keyDtypeAttr: Result<DataType>, valueDtypeAttr: Result<DataType>,
                                  isLookup: bool): (r: Result<ShapeAndType>)
    // Without usable handle data nothing is known, and nothing is wrong.
    ensures handleData.None? || |handleData.value| != 2 ==> r == Success(ShapeAndType(UnknownShape, Invalid))
    ensures handleData.Some? && |handleData.value| == 2 ==>
      var keyInfo := handleData.value[0];
      var valueInfo := handleData.value[1];
      // Attribute errors and type mismatches are reported, key first.
      && (keyDtypeAttr.Failure? ==> r == Failure(keyDtypeAttr.code))
      && (keyDtypeAttr.Success? && keyInfo.dtype != keyDtypeAttr.value ==> r == Failure(InvalidArgument))
      && (keyDtypeAttr.Success? && keyInfo.dtype == keyDtypeAttr.value && valueDtypeAttr.Failure? ==>
            r == Failure(valueDtypeAttr.code))
      && ((keyDtypeAttr.Success? && keyInfo.dtype == keyDtypeAttr.value &&
           valueDtypeAttr.Success? && valueInfo.dtype != valueDtypeAttr.value) ==> r == Failure(InvalidArgument))
      // The output holds values.
      && (r.Success? ==> r.value.dtype == valueInfo.dtype && r.value.dtype == valueDtypeAttr.value)
      && (r.Success? <==>
            && keyDtypeAttr.Success? && keyInfo.dtype == keyDtypeAttr.value
            && valueDtypeAttr.Success? && valueInfo.dtype == valueDtypeAttr.value
            && !(isLookup && keyInfo.shape.KnownShape? && keys.KnownShape? &&
                 |keys.dims| < |keyInfo.shape.dims|))
      // A lookup drops the key suffix from the keys and appends the value shape.
      && (r.Success? && isLookup && keyInfo.shape.KnownShape? && keys.KnownShape? ==>
            var prefixRank := |keys.dims| - |keyInfo.shape.dims|;
            r.value.shape == Concatenate(KnownShape(keys.dims[..prefixRank]), valueInfo.shape))
      && (r.Success? && isLookup && !(keyInfo.shape.KnownShape? && keys.KnownShape?) ==>
            r.value.shape == UnknownShape)
      // Anything else appends the value shape to the whole keys shape.
      && (r.Success? && !isLookup ==> r.value.shape == Concatenate(keys, valueInfo.shape))
  {
    if handleData.None? || |handleData.value| != 2 then Success(ShapeAndType(UnknownShape, Invalid))
    else
      var keyInfo := handleData.value[0];
      var valueInfo := handleData.value[1];
      var keyDtype :- keyDtypeAttr;
      if keyInfo.dtype != keyDtype then Failure(InvalidArgument)
      else
        var valueDtype :- valueDtypeAttr;
        if valueInfo.dtype != valueDtype then Failure(InvalidArgument)
        else if !isLookup then Success(ShapeAndType(Concatenate(keys, valueInfo.shape), valueInfo.dtype))
        else if !(keyInfo.shape.KnownShape? && keys.KnownShape?) then Success(ShapeAndType(UnknownShape, valueInfo.dtype))
        else
          var shape :- LookupShape(keyInfo.shape.dims, valueInfo.shape, keys.dims);
          Success(ShapeAndType(shape, valueInfo.dtype))
  }

  /** Handle data describing a scalar shard of the given types. No op
      publishes such data: the GetPSHandle op declares only the shape of its
      handle (see `GetPSHandleShapeFn`), so this is what inference would
      see if it did. */
  function ScalarHandleData(keyDtype: DataType, valueDtype: DataType): seq<ShapeAndType> {
    [ShapeAndType(FromShape(ShardData.KeyShape()), keyDtype), ShapeAndType(FromShape(ShardData.ValueShape()), valueDtype)]
  }

  /** Inference would agree with the kernels: given handle data for a
      scalar shard and fully known keys, a lookup is inferred to have the
      shape the lookup kernels allocate for their output. */
  lemma {:induction false} LookupInferenceMatchesKernel(keyDtype: DataType, valueDtype: DataType, keys: Shape)
    ensures ValidateResourceHandle(Some(ScalarHandleData(keyDtype, valueDtype)), FromShape(keys),
                                   Success(keyDtype), Success(valueDtype), true)
            == Success(ShapeAndType(FromShape(ShardData.ValueShapeFor(keys)), valueDtype))
  {
    var keysHandle := FromShape(keys);
    assert keysHandle.dims[..|keys|] == keysHandle.dims;
    assert keysHandle.dims + [] == keysHandle.dims;
  }

  /** `TwoElementOutput`: the handle is a vector of two elements. */
  function TwoElementOutput(): (r: ShapeHandle)
    ensures r == FromShape([2])
  {
    KnownShape([KnownDim(2)])
  }

  /** The declared handle shape holds exactly the string handle the handle
      kernel writes. */
  lemma TwoElementOutputFitsHandle(id: ResourceRegistry.Identity)
    ensures TwoElementOutput() == FromShape([|Handles.EncodeHandle(id)|])
    ensures NumElements([2]) == |Handles.EncodeHandle(id)|
  {
  }

  /** `InferenceContext::WithRank`: an unknown shape becomes `rank` unknown
      dimensions; a known shape must have that rank. */
  function WithRank(shape: ShapeHandle, rank: nat): (r: Result<ShapeHandle>)
    ensures r.Success? <==> shape.UnknownShape? || |shape.dims| == rank
    ensures r.Success? ==> r.value.KnownShape? && |r.value.dims| == rank
    ensures r.Success? && shape.KnownShape? ==> r.value == shape
    ensures r.Failure? ==> r.code == InvalidArgument
  {
    match shape
    case UnknownShape => Success(KnownShape(seq(rank, _ => UnknownDim)))
    case KnownShape(dims) => if |dims| == rank then Success(shape) else Failure(InvalidArgument)
  }

  /** The shape function of the GetPSHandle op: the two-element handle
      shape, and no handle data for the ops that consume the handle. */
  function GetPSHandleShapeFn(): (r: (ShapeHandle, Option<seq<ShapeAndType>>))
    ensures r.0 == TwoElementOutput() && r.1.None?
  {
    (TwoElementOutput(), None)
  }

  /** The shape function of the PSPull op: the handle must be a vector, and
      the output shape is what `ValidateResourceHandle` infers for a lookup
      with the `Tin` and `Tout` attributes. */
  function PullShapeFn(handle: ShapeHandle, handleData: Option<seq<ShapeAndType>>, keys: ShapeHandle,
                       tin: Result<DataType>, tout: Result<DataType>): (r: Result<ShapeHandle>)
    // A handle of known rank other than 1 is rejected before anything else.
    ensures handle.KnownShape? && |handle.dims| != 1 ==> r == Failure(InvalidArgument)
    // Without handle data the output shape is unknown; the attributes are not read.
    ensures (handle.UnknownShape? || |handle.dims| == 1) && (handleData.None? || |handleData.value| != 2) ==>
      r == Success(UnknownShape)
    // With handle data, success needs both attributes and both dtypes to agree.
    ensures r.Success? && handleData.Some? && |handleData.value| == 2 ==>
      && tin.Success? && handleData.value[0].dtype == tin.value
      && tout.Success? && handleData.value[1].dtype == tout.value
    // The inferred shape is that of a lookup: the keys without their key
    // suffix, followed by the value shape; unknown when either is unknown.
    ensures r.Success? && handleData.Some? && |handleData.value| == 2 ==>
      var keyShape := handleData.value[0].shape;
      if keyShape.KnownShape? && keys.KnownShape? then
        && |keyShape.dims| <= |keys.dims|
        && r.value == Concatenate(KnownShape(keys.dims[..|keys.dims| - |keyShape.dims|]), handleData.value[1].shape)
      else
        r.value == UnknownShape
  {
    var _ :- WithRank(handle, 1);
    var inferred :- ValidateResourceHandle(handleData, keys, tin, tout, true);
    Success(inferred.shape)
  }

  /** In the program as registered, PSPull's output shape is never inferred:
      its handle comes from GetPSHandle, which publishes no handle data, so
      whatever the keys and attributes, the output shape is unknown. */
  lemma PullShapeUnknownAsRegistered(keys: ShapeHandle, tin: Result<DataType>, tout: Result<DataType>)
    ensures PullShapeFn(GetPSHandleShapeFn().0, GetPSHandleShapeFn().1, keys, tin, tout) == Success(UnknownShape)
  {
  }

  /** Only a vector handle passes PSPull's shape function. */
  lemma PullShapeNeedsVectorHandle(handle: ShapeHandle, handleData: Option<seq<ShapeAndType>>, keys: ShapeHandle,
                                   tin: Result<DataType>, tout: Result<DataType>)
    requires handle.KnownShape? && |handle.dims| != 1
    ensures PullShapeFn(handle, handleData, keys, tin, tout) == Failure(InvalidArgument)
  {
  }
}

=== FILE: shard_data.dfy ===
/**
 One parameter shard: `PSShard`, the shape and dtype contract shared by all
 shards, and `PSShardOfScalars<K, V>`, the hash table from scalar keys to
 scalar values behind it. The table is a `map`; the reader-writer lock
 around it is not modelled (every operation here runs alone).
 */
module ShardData {
  import opened Outcome
  import opened Tensors
  import opened Sequences

  /** A shard: the element types fixed when it was created and its table. */
  datatype Shard<K, V> = Shard(keyDtype: DataType, valueDtype: DataType, table: map<K, V>)

  /** Keys and values of this shard kind are scalars. */
  function KeyShape(): Shape {
    []
  }

  function ValueShape(): Shape {
    []
  }

  /** Position `i` holds the last occurrence of its key in `keys`. */
  predicate IsLastOccurrence<K(==)>(keys: seq<K>, i: int)
    requires 0 <= i < |keys|
  {
    forall j :: i < j < |keys| ==> keys[j] != keys[i]
  }

  // ---------------------------------------------------------------------
  // Shape and dtype validation (PSShard)
  // ---------------------------------------------------------------------

  /** The value shape a keys array of shape `keysShape` calls for: drop the
      key-shape suffix, append the value shape. For scalar shards this is
      the keys shape itself. */
  function ValueShapeFor(keysShape: Shape): (r: Shape)
    ensures r == keysShape
  {
    keysShape[..|keysShape| - |KeyShape()|] + ValueShape()
  }

  /** `LookupInterface::CheckKeyAndValueTypes` of the host: the tensors'
      element types must be the shard's. */
  function CheckKeyAndValueTypes<K, V>(s: Shard<K, V>, keys: Tensor<K>, values: Tensor<V>): Status {
    if keys.dtype != s.keyDtype then Error(InvalidArgument)
    else if values.dtype != s.valueDtype then Error(InvalidArgument)
    else Ok
  }

  /** `LookupInterface::CheckKeyShape` of the host: keys must end with the
      key shape. */
  function CheckKeyShape(shape: Shape): Status {
    if EndsWith(shape, KeyShape()) then Ok else Error(InvalidArgument)
  }

  /** The check both `CheckKeyAndValueTensorsForInsert` and
      `CheckKeyAndValueTensorsForImport` delegate to. */
  function CheckKeyAndValueTensors<K, V>(s: Shard<K, V>, keys: Tensor<K>, values: Tensor<V>): (st: Status)
    ensures st.Ok? <==> keys.dtype == s.keyDtype && values.dtype == s.valueDtype && values.shape == keys.shape
    ensures st.Error? ==> st.code == InvalidArgument
  {
    CheckKeyAndValueTypes(s, keys, values)
      .Then(CheckKeyShape(keys.shape))
      .Then(if values.shape != ValueShapeFor(keys.shape) then Error(InvalidArgument) else Ok)
  }

  /** `CheckKeyTensorForRemove`: only the key element type can be wrong. */
  function CheckKeyTensorForRemove<K, V>(s: Shard<K, V>, keys: Tensor<K>): (st: Status)
    ensures st.Ok? <==> keys.dtype == s.keyDtype
    ensures st.Error? ==> st.code == InvalidArgument
  {
    if keys.dtype != s.keyDtype then Error(InvalidArgument)
    else CheckKeyShape(keys.shape)
  }

  /** `LookupInterface::CheckFindArguments` of the host, in its TensorFlow
      2.x form: element types, and a default that is either one value
      shared by all keys or one value per key. */
  function CheckFindArguments<K, V>(s: Shard<K, V>, keys: Tensor<K>, defaults: Tensor<V>): (st: Status)
    ensures st.Ok? <==>
      && keys.dtype == s.keyDtype
      && defaults.dtype == s.valueDtype
      && (defaults.shape == [] || defaults.shape == keys.shape)
    ensures st.Error? ==> st.code == InvalidArgument
    ensures st.Ok? && keys.WellFormed() && defaults.WellFormed() ==>
      |defaults.data| == 1 || |defaults.data| == |keys.data|
  {
    CheckKeyAndValueTypes(s, keys, defaults)
      .Then(CheckKeyShape(keys.shape))
      .Then(
        if defaults.shape != ValueShape() && defaults.shape != ValueShapeFor(keys.shape) then Error(InvalidArgument)
        else Ok)
  }

  // ---------------------------------------------------------------------
  // Table operations (PSShardOfScalars)
  // ---------------------------------------------------------------------

  function Size<K, V>(s: Shard<K, V>): nat {
    |s.table|
  }

  /** `Find`: one output per key, the stored value when the key is present,
      otherwise a default. When there are exactly as many defaults as
      outputs key i uses default i, otherwise every key uses the first
      default; the caller supplies a default whenever there is a key. */
  function Find<K, V>(s: Shard<K, V>, keys: seq<K>, defaults: seq<V>): (values: seq<V>)
    requires |keys| == 0 || |defaults| > 0
    ensures |values| == |keys|
    ensures forall i :: 0 <= i < |keys| && keys[i] in s.table ==> values[i] == s.table[keys[i]]
    ensures |defaults| == |keys| ==>
      forall i :: 0 <= i < |keys| && keys[i] !in s.table ==> values[i] == defaults[i]
    ensures |defaults| != |keys| ==>
      forall i :: 0 <= i < |keys| && keys[i] !in s.table ==> values[i] == defaults[0]
  {
    var fullSizeDefault := |defaults| == |keys|;
    seq(|keys|, i requires 0 <= i < |keys| =>
      if keys[i] in s.table then s.table[keys[i]]
      else if fullSizeDefault then defaults[i] else defaults[0])
  }

  /** `r` holds `m` upserted with (keys[i], values[i]) for every i. */
  ghost predicate IsUpsertOf<K, V>(m: map<K, V>, keys: seq<K>, values: seq<V>, r: map<K, V>)
    requires |keys| <= |values|
  {
    && r.Keys == m.Keys + Elems(keys)
    && (forall k :: k in m && k !in keys ==> r[k] == m[k])
    && (forall i :: 0 <= i < |keys| && IsLastOccurrence(keys, i) ==> r[keys[i]] == values[i])
  }

  /** Upserting one more pair after a batch upserts the extended batch. */
  lemma UpsertStep<K, V>(m: map<K, V>, keys: seq<K>, values: seq<V>, prev: map<K, V>)
    requires 0 < |keys| <= |values|
    requires IsUpsertOf(m, keys[..|keys| - 1], values, prev)
    ensures IsUpsertOf(m, keys, values, prev[keys[|keys| - 1] := values[|keys| - 1]])
  {
    var n := |keys| - 1;
    var prefix := keys[..n];
    var r := prev[keys[n] := values[n]];
    assert Elems(keys) == Elems(prefix) + {keys[n]} by {
      assert keys == prefix + [keys[n]];
    }
    forall k | k in m && k !in keys
      ensures r[k] == m[k]
    {
      assert k !in prefix;
    }
    forall i | 0 <= i < |keys| && IsLastOccurrence(keys, i)
      ensures r[keys[i]] == values[i]
    {
      if i < n {
        assert keys[i] != keys[n];
        assert IsLastOccurrence(prefix, i);
      }
    }
  }

  /** Insert-or-update every (keys[i], values[i]) into `m`, in order. */
  function Upsert<K, V>(m: map<K, V>, keys: seq<K>, values: seq<V>): (r: map<K, V>)
    requires |keys| <= |values|
    ensures r.Keys == m.Keys + Elems(keys)
    ensures forall k :: k in m && k !in keys ==> r[k] == m[k]
    ensures forall i :: 0 <= i < |keys| && IsLastOccurrence(keys, i) ==> r[keys[i]] == values[i]
    decreases |keys|
  {
    if |keys| == 0 then m
    else
      var n := |keys| - 1;
      var prev := Upsert(m, keys[..n], values);
      UpsertStep(m, keys, values, prev);
      prev[keys[n] := values[n]]
  }

  /** `DoInsert`: optionally empty the table, then upsert the batch. The
      loop reads one value per key, so there must be at least as many. */
  function DoInsert<K, V>(s: Shard<K, V>, clear: bool, keys: seq<K>, values: seq<V>): (r: Shard<K, V>)
    requires |keys| <= |values|
    ensures r.keyDtype == s.keyDtype && r.valueDtype == s.valueDtype
    ensures r.table.Keys == (if clear then {} else s.table.Keys) + Elems(keys)
    ensures forall i :: 0 <= i < |keys| && IsLastOccurrence(keys, i) ==> r.table[keys[i]] == values[i]
    ensures !clear ==> forall k :: k in s.table && k !in keys ==> r.table[k] == s.table[k]
  {
    s.(table := Upsert(if clear then map[] else s.table, keys, values))
  }

  /** `Insert`: upsert without clearing; keys outside the batch keep their
      values and the last occurrence of a key in the batch wins. */
  function Insert<K, V>(s: Shard<K, V>, keys: seq<K>, values: seq<V>): (r: Shard<K, V>)
    requires |keys| <= |values|
    ensures r.keyDtype == s.keyDtype && r.valueDtype == s.valueDtype
    ensures r.table.Keys == s.table.Keys + Elems(keys)
    ensures forall i :: 0 <= i < |keys| && IsLastOccurrence(keys, i) ==> r.table[keys[i]] == values[i]
    ensures forall k :: k in s.table && k !in keys ==> r.table[k] == s.table[k]
  {
    DoInsert(s, false, keys, values)
  }

  /** `ImportValues`: replace the whole table by the batch. */
  function ImportValues<K, V>(s: Shard<K, V>, keys: seq<K>, values: seq<V>): (r: Shard<K, V>)
    requires |keys| <= |values|
    ensures r.keyDtype == s.keyDtype && r.valueDtype == s.valueDtype
    ensures r.table.Keys == Elems(keys)
    ensures forall i :: 0 <= i < |keys| && IsLastOccurrence(keys, i) ==> r.table[keys[i]] == values[i]
  {
    DoInsert(s, true, keys, values)
  }

  /** `Remove` is a stub: it reports success and removes nothing. */
  function Remove<K, V>(s: Shard<K, V>, keys: seq<K>): (r: Result<Shard<K, V>>)
    ensures r.Success? && r.value.table == s.table
  {
    Success(s)
  }

  /** `keys`/`values` list every entry of `m` exactly once, in some order. */
  predicate IsExportOf<K, V(==)>(m: map<K, V>, keys: seq<K>, values: seq<V>) {
    && |keys| == |values| == |m|
    && NoDuplicates(keys)
    && (forall i :: 0 <= i < |keys| ==> keys[i] in m && m[keys[i]] == values[i])
    && (forall k :: k in m ==> k in keys)
  }

  /** `ExportValues`: walk the table once, emitting each entry. The walk
      order of the hash table is unspecified, so the entry to emit next is
      chosen freely among those not yet emitted. */
  method ExportValues<K, V(==)>(s: Shard<K, V>) returns (keys: seq<K>, values: seq<V>)
    ensures IsExportOf(s.table, keys, values)
  {
    keys, values := [], [];
    var rest := s.table.Keys;
    while rest != {}
      invariant rest <= s.table.Keys
      invariant |keys| == |values|
      invariant NoDuplicates(keys)
      invariant forall i :: 0 <= i < |keys| ==> keys[i] in s.table && keys[i] !in rest && s.table[keys[i]] == values[i]
      invariant Elems(keys) + rest == s.table.Keys
      decreases rest
    {
      var k :| k in rest;
      keys, values := keys + [k], values + [s.table[k]];
      rest := rest - {k};
    }
    DistinctCardinality(keys);
    assert Elems(keys) == s.table.Keys;
  }

  /** A table holding exactly the exported keys, each with the value listed
      at its last occurrence, is the exported table. */
  lemma {:induction false} ExportDeterminesTable<K, V>(m: map<K, V>, keys: seq<K>, values: seq<V>, t: map<K, V>)
    requires IsExportOf(m, keys, values)
    requires t.Keys == Elems(keys)
    requires forall i :: 0 <= i < |keys| && IsLastOccurrence(keys, i) ==> t[keys[i]] == values[i]
    ensures t == m
  {
    assert Elems(keys) == m.Keys;
    forall k | k in m
      ensures t[k] == m[k]
    {
      var i :| 0 <= i < |keys| && keys[i] == k;
      assert IsLastOccurrence(keys, i);
    }
  }

  /** After an import the table holds one entry per distinct key, and so at
      most one per key of the batch. */
  lemma {:induction false} SizeAfterImport<K, V>(s: Shard<K, V>, keys: seq<K>, values: seq<V>)
    requires |keys| <= |values|
    ensures Size(ImportValues(s, keys, values)) <= |keys|
    ensures NoDuplicates(keys) ==> Size(ImportValues(s, keys, values)) == |keys|
  {
    DistinctElemsBound(keys);
    if NoDuplicates(keys) {
      DistinctCardinality(keys);
    }
  }

  /** Importing an export restores the table: the Save-then-Load round trip. */
  lemma {:induction false} ImportOfExport<K, V>(s: Shard<K, V>, keys: seq<K>, values: seq<V>)
    requires IsExportOf(s.table, keys, values)
    ensures ImportValues(s, keys, values) == s
  {
    ExportDeterminesTable(s.table, keys, values, ImportValues(s, keys, values).table);
  }

  /** The default-selection law: a batch with a single default gives that
      default to every absent key. */
  lemma SingleDefault<K, V>(s: Shard<K, V>, keys: seq<K>, d: V, i: int)
    requires 0 <= i < |keys| && keys[i] !in s.table
    ensures Find(s, keys, [d])[i] == d
  {
  }

  /** Last write wins: after inserting [k, k] with [v1, v2], k reads v2. */
  lemma LastWriteWins<K, V>(s: Shard<K, V>, k: K, v1: V, v2: V, d: V)
    ensures Find(Insert(s, [k, k], [v1, v2]), [k], [d]) == [v2]
  {
    assert IsLastOccurrence([k, k], 1);
  }

  /** Reading keys right after inserting them returns the inserted values
      (the last occurrence of each), whatever the defaults. */
  lemma {:induction false} FindAfterInsert<K, V>(s: Shard<K, V>, keys: seq<K>, values: seq<V>, defaults: seq<V>)
    requires |keys| <= |values|
    requires |keys| == 0 || |defaults| > 0
    ensures forall i :: 0 <= i < |keys| && IsLastOccurrence(keys, i) ==>
      Find(Insert(s, keys, values), keys, defaults)[i] == values[i]
  {
  }
}

=== FILE: tensors.dfy ===
/**
 The host engine's tensor vocabulary as far as the parameter-server kernels
 use it: element types, shapes, dtype-tagged flat tensors and the kernel
 signature check.
 */
module Tensors {
  import opened Outcome

  /** Element types. `StringRef` is the reference variant of `String`, the
      type a `Ref(string)` input carries. */
  datatype DataType =
    | Invalid
    | Int32
    | Int64
    | Float32
    | Float64
    | String
    | StringRef
    | Resource

  /** The type a reference type refers to; other types are their own base. */
  function BaseType(t: DataType): DataType {
    if t == StringRef then String else t
  }

  /** An actual type is acceptable where `expected` is declared when it is
      that type or a reference to it. */
  predicate TypesCompatible(expected: DataType, actual: DataType) {
    expected == actual || expected == BaseType(actual)
  }

  /** A fully known shape: one size per dimension; `[]` is a scalar. */
  type Shape = seq<nat>

  function NumElements(shape: Shape): nat {
    if |shape| == 0 then 1 else NumElements(shape[..|shape| - 1]) * shape[|shape| - 1]
  }

  /** `shape` ends with the dimensions `suffix`. */
  predicate EndsWith(shape: Shape, suffix: Shape) {
    |suffix| <= |shape| && shape[|shape| - |suffix|..] == suffix
  }

  /** A dense tensor: its element type tag, its shape and its elements in
      row-major order. */
  datatype Tensor<E> = Tensor(dtype: DataType, shape: Shape, data: seq<E>) {
    /** The host only hands out tensors whose element count matches the shape. */
    predicate WellFormed() {
      |data| == NumElements(shape)
    }
  }

  /** `tensor.flat<T>()`: the elements, read as the element type `dtype`.
      The host CHECKs the tag first, so a mismatch aborts. */
  function Flat<E>(t: Tensor<E>, dtype: DataType): (r: Result<seq<E>>)
    ensures r.Success? <==> t.dtype == dtype
    ensures r.Success? ==> r.value == t.data
    ensures r.Failure? ==> r.code == Fatal
  {
    if t.dtype == dtype then Success(t.data) else Failure(Fatal)
  }

  /** The input and output element types of one kernel invocation. */
  datatype Signature = Signature(inputs: seq<DataType>, outputs: seq<DataType>)

  predicate Compatible(expected: seq<DataType>, actual: seq<DataType>) {
    |expected| == |actual| && forall i :: 0 <= i < |actual| ==> TypesCompatible(expected[i], actual[i])
  }

  /** `OpKernelContext::MatchSignature`: both lists must have the expected
      length and every actual type must be compatible with the declared one. */
  function MatchSignature(expected: Signature, actual: Signature): (st: Status)
    ensures st.Ok? <==> Compatible(expected.inputs, actual.inputs) && Compatible(expected.outputs, actual.outputs)
    ensures st.Error? ==> st.code == InvalidArgument
  {
    if Compatible(expected.inputs, actual.inputs) && Compatible(expected.outputs, actual.outputs) then Ok
    else Error(InvalidArgument)
  }

  /** A signature whose lengths differ from the actual one never matches. */
  lemma LengthMismatchRejected(expected: Signature, actual: Signature)
    requires |expected.inputs| != |actual.inputs| || |expected.outputs| != |actual.outputs|
    ensures MatchSignature(expected, actual) == Error(InvalidArgument)
  {
  }
}
